=== FILE: README.md ===
# BifurcationUI report layout, load lookup and constants check in Dafny

BifurcationApp/BifurcationUI.py is a Streamlit front end for a bifurcation
solver. It builds an energy expression, hands it to the pyfurc solver, plots
the branches, and writes a PDF report. This project models the parts of the
script that are plain algorithms, and proves properties of them.

- **Report layout (`save_pdf`).** The nested `add_text` splits its text on
  newlines and strips every piece. A blank piece becomes one empty line. A
  piece wider than the text width is cut at the last space whose prefix fits,
  and the stripped remainder is wrapped again. The lines are then drawn down
  the page from `text_y = 750`, 14 points apart. A new page starts once
  `text_y` has reached the 50-point bottom margin. `text_y` is shared by all
  calls. The report also places the uploaded sketch and the bifurcation plot,
  each 400 by 300 points, after checking that there is room for them.
- **Load lookup.** After each solve, the solver's branches are scanned
  sample by sample. Every `(PAR(1), U(1))` pair becomes a table row. The
  displacement of the last sample whose load lies within 0.01 of the
  requested load is reported. Three page handlers hold identical copies of
  this loop.
- **Constants check.** The "Stability Analysis" page shows an error when the
  constants map has the key `q`, or otherwise the key `theta`. Plotting goes
  ahead either way.

Modules:

- `Maybe` (maybe.dfy) holds `Option`, the model's stand-in for Python's
  `None`.
- `PyStr` (pystr.dfy) models the parts of Python's `str` that the code uses:
  `isspace`, `strip`, `split`, and prefix slices and `rfind` with Python's
  index normalisation.
- `Wrap` (wrap.dfy) models the word wrap. It has two versions:
  - the cut search exactly as written (`SearchSplit`, `WrapLineAsWritten`,
    `WrapTextAsWritten`), which can fail to terminate;
  - the intended wrap (`WrapLine`, `WrapText`).

  Lemmas relate the two versions.
- `Layout` (layout.dfy) models pagination and image placement.
- `Report` (report.dfy) models the sequence of calls in `save_pdf`.
- `Lookup` (lookup.dfy) models the branch scan.
- `Constants` (constants.dfy) models the key check.

Text width is additive. `glyph` gives each character's Helvetica advance in
thousandths of an em. A line at font size `s` fits the 412-point text width
(612 minus two 100-point margins) exactly when `s` times the sum of its
glyph widths is at most 412000. This is `stringWidth(line) <= page_width`
computed exactly.

Two things the proofs expose about the layout:

- **The wrap can hang.** See Findings.
- **The plot can sit inside the bottom margin.** The room check for the plot
  runs before the two caption lines are drawn. So the plot's lower edge is
  only guaranteed to be above 22 points, not above the 50-point margin.
  `Layout.PlotBelowMargin` starts from 358 points, where 28 lines on the
  first page leave the cursor, and the plot lands at 30 points.

## Model

| member | source | states |
|---|---|---|
| PyStr.Strip | BifurcationApp/BifurcationUI.py:102 | the stripped piece is a contiguous part of the input, framed only by whitespace, starting and ending with a non-space; it is empty exactly when the piece is all whitespace |
| PyStr.StripKeepsText | BifurcationApp/BifurcationUI.py:117 | stripping never drops or reorders a non-whitespace character |
| PyStr.SplitOn | BifurcationApp/BifurcationUI.py:101 | splitting on a newline gives at least one piece, no piece holds a newline, and joining the pieces with newlines gives the text back |
| PyStr.SplitJoin | BifurcationApp/BifurcationUI.py:101 | splitting is the inverse of joining newline-free pieces |
| PyStr.ClampIndex | BifurcationApp/BifurcationUI.py:112-113 | a slice bound or `rfind` end counts from the end when negative and is clamped to the string, as Python does for `line[:-1]` and `rfind(' ', 0, -1)` |
| PyStr.IsSpace | BifurcationApp/BifurcationUI.py:102 | the whitespace characters of Python's `str.isspace`, which `strip()` removes (used by `PyStr.Strip`) |
| PyStr.PyPrefix | BifurcationApp/BifurcationUI.py:112 | `line[:k]` with Python's negative and out-of-range bounds (contract in `PyStr.ClampIndex`) |
| PyStr.RFind | BifurcationApp/BifurcationUI.py:113 | `rfind(' ', 0, end)` with Python's index normalisation of `end` (contract in `PyStr.RFindBelow`) |
| PyStr.RFindBelow | BifurcationApp/BifurcationUI.py:113 | the result is -1 or an index below the end holding the character, with no occurrence between it and the end |
| Wrap.SearchSplit | BifurcationApp/BifurcationUI.py:111-113 | when the cut search stops, the prefix before the split point fits, and the split point is the line length, -1, or the index of a space |
| Wrap.BreakIndex | BifurcationApp/BifurcationUI.py:111-115 | the cut of an overlong line is a space whose prefix fits with no later such space; it is the whole line exactly when no space gives a fitting prefix |
| Wrap.SearchFuelSuffices | BifurcationApp/BifurcationUI.py:111-113 | if the cut search stops after any number of iterations, it stops within `len(line) + 1` iterations, at the same split point |
| Wrap.SearchStopsIff | BifurcationApp/BifurcationUI.py:111-113 | the inner loop stops, for some number of iterations or for `n + 1`, exactly when some space gives a fitting prefix or the line minus its last character fits |
| Wrap.CutAsWritten | BifurcationApp/BifurcationUI.py:111-115 | the split point as the source computes it, with -1 replaced by the line length; absent when the search never stops (contract in `Wrap.CutAsWrittenSpec`) |
| Wrap.WrapLineAsWritten | BifurcationApp/BifurcationUI.py:106-117 | the `while line:` loop as written; absent when it never finishes (its relation to the intended wrap is `Wrap.AsWrittenAgrees` and `Wrap.AsWrittenHangsIff`) |
| Wrap.CutAsWrittenSpec | BifurcationApp/BifurcationUI.py:111-115 | the source's cut never arrives exactly in the hanging case, and otherwise equals the intended cut |
| Wrap.WrapLine | BifurcationApp/BifurcationUI.py:106-117 | a non-empty stripped line wraps into non-empty lines that each start with a non-space; only the empty line wraps into nothing |
| Wrap.WrapLineFits | BifurcationApp/BifurcationUI.py:106-117 | every wrapped line fits the text width except possibly the last, and then only when it has no space to cut at |
| Wrap.WrapLineKeepsText | BifurcationApp/BifurcationUI.py:116-117 | the wrapped lines hold exactly the non-whitespace characters of the line, in order |
| Wrap.AsWrittenAgrees | BifurcationApp/BifurcationUI.py:106-117 | whenever the source's wrap of a line finishes, it produces exactly the intended wrap |
| Wrap.AsWrittenHangsIff | BifurcationApp/BifurcationUI.py:106-117 | the source's wrap of a line never finishes exactly when the last intended line is wider than the page even without its last character |
| Wrap.WrapPiece | BifurcationApp/BifurcationUI.py:101-117 | one newline-separated piece, stripped and wrapped, always gives at least one line (blank pieces in `Wrap.WrapPieceBlank`) |
| Wrap.WrapPieceBlank | BifurcationApp/BifurcationUI.py:101-105 | a piece gives the single empty line exactly when it is blank (empty or all whitespace) |
| Wrap.WrapPiecesAppend | BifurcationApp/BifurcationUI.py:101-117 | pieces are wrapped independently and their lines keep the pieces' order |
| Wrap.WrapPiecesCount | BifurcationApp/BifurcationUI.py:101-105 | a text gives at least one line per newline-separated piece |
| Wrap.WrapText | BifurcationApp/BifurcationUI.py:100-117 | the lines `add_text` collects for a text, with the intended cut rule (its properties are `Wrap.WrapTextKeepsText`, `Wrap.WrapTextFits` and `Wrap.AsWrittenTextAgrees`) |
| Wrap.WrapTextKeepsText | BifurcationApp/BifurcationUI.py:101-117 | the lines of a text hold exactly its non-whitespace characters, in order |
| Wrap.WrapTextFits | BifurcationApp/BifurcationUI.py:101-117 | every line of a text fits the width unless it has no space to cut at |
| Wrap.AsWrittenTextAgrees | BifurcationApp/BifurcationUI.py:100-117 | the source's line collection finishes exactly when no piece hangs, and then equals the intended lines |
| Wrap.RunsFitTerminates | BifurcationApp/BifurcationUI.py:106-117 | if every space-free run of a line fits, the source's wrap finishes and gives the intended lines |
| Wrap.RunsFitTextFits | BifurcationApp/BifurcationUI.py:100-117 | if every space-free run of every piece fits, the source's `add_text` finishes, and every line it draws fits the width |
| Wrap.NoSpaceLineWhole | BifurcationApp/BifurcationUI.py:112-115 | the intended wrap draws a line without spaces whole on one line, however wide it is (the source hangs on such a line when `line[:-1]` is still too wide; see Findings) |
| Wrap.OverlongWordHangs | BifurcationApp/BifurcationUI.py:112-113 | the space-free line "abcde", one unit per character against a limit of three, never leaves the cut search for any number of iterations |
| Wrap.OverlongFirstWordHangs | BifurcationApp/BifurcationUI.py:111-115 | the line "abcd e", one unit per character against a limit of three, never finishes as written: the only space ends a prefix too wide and `line[:-1]` is too wide as well |
| Wrap.OverlongTextHangs | BifurcationApp/BifurcationUI.py:100-117 | that text never gets drawn by the source, while the intended wrap draws it as one line |
| Layout.DrawLines | BifurcationApp/BifurcationUI.py:119-125 | one drawn text item per line, in order; from a cursor on the 14-point grid (`750 - 14 * j`) the positions are pinned down by `Layout.DrawLinesPages`; from any cursor, `Layout.DrawLinesInBand` and `Layout.DrawLinesSpans` bound them |
| Layout.LineStart | BifurcationApp/BifurcationUI.py:120-123 | a line is placed on the current page when the cursor is above the margin, and at the top of a new page otherwise; either way strictly above the margin |
| Layout.DrawLinesKeepsLines | BifurcationApp/BifurcationUI.py:119-125 | every line is drawn exactly once, in order, at the left margin and in the call's font size |
| Layout.DrawLinesInBand | BifurcationApp/BifurcationUI.py:119-125 | every line is drawn above the bottom margin and no higher than the page top or the starting cursor, and the cursor ends 14 points below the last line |
| Layout.DrawLinesSpans | BifurcationApp/BifurcationUI.py:119-125 | the lines go down the pages in reading order, below the starting cursor and above the cursor they leave |
| Layout.DrawLinesAppend | BifurcationApp/BifurcationUI.py:98-125 | drawing two line lists one after the other, with `text_y` carried over, equals drawing their concatenation |
| Layout.DrawLinesPages | BifurcationApp/BifurcationUI.py:119-125 | starting from the `j`-th position of a page, line `i` lands on page `(j + i) / 50` further at `750 - 14 * ((j + i) % 50)`: fifty lines to a page |
| Layout.SpansAppend | BifurcationApp/BifurcationUI.py:128-147 | successive calls that each draw in reading order together draw in reading order |
| Layout.AddText | BifurcationApp/BifurcationUI.py:97-125 | `add_text` with the intended wrap: the wrapped lines drawn from the shared cursor (contract in `Layout.AddTextSound`) |
| Layout.AddTextAsWritten | BifurcationApp/BifurcationUI.py:97-125 | `add_text` as written; absent when its wrap never finishes (contract in `Layout.AddTextAgrees`) |
| Layout.AddTextAgrees | BifurcationApp/BifurcationUI.py:97-125 | the source's `add_text` returns exactly when no piece of its text hangs the wrap, and then draws what the intended version draws |
| Layout.AddTextSound | BifurcationApp/BifurcationUI.py:97-125 | `add_text` draws the wrapped lines of its text, losing no non-whitespace character, in reading order, within the margins, and keeps the cursor on the page |
| Layout.PlaceSketch | BifurcationApp/BifurcationUI.py:134-139 | the sketch placement: its page check, the 400 by 300 image at `x = 100` with its lower edge at `text_y - 300`, and the 320-point move (contract in `Layout.PlaceSketchSound`) |
| Layout.PlaceSketchSound | BifurcationApp/BifurcationUI.py:134-139 | the sketch starts a new page exactly when `text_y - 300` reaches the margin, its top is then the page top and otherwise the cursor; it lies wholly between the bottom margin and the page top, below everything before it, the image is 400 by 300 points at `x = 100`, and the cursor ends 320 points under its top, 20 under its lower edge |
| Layout.PlotStart | BifurcationApp/BifurcationUI.py:149-151 | the room check starts a new page (at 750) exactly when `text_y - 300` reaches the 50-point margin and otherwise leaves the cursor unchanged; either way a 300-point image then clears the margin, and the cursor has not moved up the document |
| Layout.PlotCaption | BifurcationApp/BifurcationUI.py:152 | the caption is always an empty line and "Plot:", whatever the font metrics |
| Layout.PlacePlot | BifurcationApp/BifurcationUI.py:149-153 | the room check, the caption and the plot, in that order (contract in `Layout.PlacePlotSound`) |
| Layout.WithPlot | BifurcationApp/BifurcationUI.py:153 | the plot drawn 300 points below the cursor the caption leaves, which does not move (contract in `Layout.PlacePlotSound`) |
| Layout.PlacePlotSound | BifurcationApp/BifurcationUI.py:149-153 | the plot is drawn after two caption lines, 328 points below the checked cursor, so its lower edge is only guaranteed above 22 points |
| Layout.PlacePlotAgrees | BifurcationApp/BifurcationUI.py:149-153 | the source's plot placement finishes exactly when its caption does not hang, and then agrees with the intended one |
| Layout.PlotBelowMargin | BifurcationApp/BifurcationUI.py:149-153 | with the cursor at 358 points (28 lines down the first page) the check passes and the plot's lower edge lands at 30 points, below the margin |
| Report.Steps | BifurcationApp/BifurcationUI.py:128-147 | the calls of the report body in source order, the sketch only when uploaded (contract in `Report.SketchStepsOfReport`) |
| Report.RunSteps | BifurcationApp/BifurcationUI.py:128-147 | the report body's calls performed one after another with the cursor carried over (contract in `Report.RunStepsSound`) |
| Report.ConstantSteps | BifurcationApp/BifurcationUI.py:146-147 | one 12-point line request `key = value` per constant, in dictionary order |
| Report.PerformSound | BifurcationApp/BifurcationUI.py:128-147 | each call in the report body draws its lines or its sketch in reading order within the margins |
| Report.RunStepsAgrees | BifurcationApp/BifurcationUI.py:128-147 | the source's report body finishes exactly when no call's text hangs, and then equals the intended layout |
| Report.RunStepsSound | BifurcationApp/BifurcationUI.py:128-147 | the report body draws every item within the margins and in reading order, its lines are the wrapped texts in call order, and it has one sketch per sketch call |
| Report.LayoutReport | BifurcationApp/BifurcationUI.py:128-153 | the whole report from the top of the first page: body, then plot (contract in `Report.LayoutReportSound`) |
| Report.ReportAsWritten | BifurcationApp/BifurcationUI.py:128-153 | the whole report as written; absent when some wrap never finishes (contract in `Report.ReportAgrees`) |
| Report.ReportAgrees | BifurcationApp/BifurcationUI.py:128-153 | `save_pdf` finishes exactly when none of its texts, the plot caption included, hangs the wrap, and then lays out the intended report |
| Report.SketchStepsOfReport | BifurcationApp/BifurcationUI.py:134 | the report asks for the sketch once when an image was uploaded and never otherwise |
| Report.LayoutReportSound | BifurcationApp/BifurcationUI.py:128-153 | the report's items are in reading order; all of them except the plot lie within the margins; the plot comes last and lies above 22 points; the lines are the wrapped texts followed by the caption; there is a sketch exactly when one was uploaded |
| Report.StepLinesKeepText | BifurcationApp/BifurcationUI.py:128-147 | the report's lines hold the non-whitespace characters of all its texts, in call order |
| Lookup.LookupLoad | BifurcationApp/BifurcationUI.py:322-332 | the scan builds one row per zipped sample, in branch-then-sample order; it finds nothing exactly when no sample's load is within 0.01; otherwise it finds the displacement of a near sample with no near sample after it |
| Lookup.AllRows | BifurcationApp/BifurcationUI.py:322-330 | the rows `raw_data_list` collects, branch after branch (contracts in `Lookup.RowCount` and `Lookup.RowPosition`) |
| Lookup.LastNear | BifurcationApp/BifurcationUI.py:329-332 | the displacement `corresponding_q` ends with (contract in `Lookup.LastNearSpec`) |
| Lookup.LastNearSpec | BifurcationApp/BifurcationUI.py:329-332 | the remembered displacement is absent exactly when no row is near, and otherwise belongs to the last near row |
| Lookup.LastNearAppend | BifurcationApp/BifurcationUI.py:329-332 | scanning more rows keeps the earlier answer unless a later row is near |
| Lookup.LaterBranchWins | BifurcationApp/BifurcationUI.py:322-332 | a match in a later branch overrides every match in earlier branches |
| Lookup.RowCount | BifurcationApp/BifurcationUI.py:329-330 | the table has exactly as many rows as zipped samples: each branch contributes the shorter of its two columns |
| Lookup.RowPosition | BifurcationApp/BifurcationUI.py:322-330 | sample `k` of branch `b` is the row right after the rows of the branches before `b` |
| Constants.CheckConstants | BifurcationApp/BifurcationUI.py:244-247 | the `q` error is reported exactly when `q` is a key; the `theta` error exactly when `theta` is a key and `q` is not; otherwise none |
| Constants.ErrorText | BifurcationApp/BifurcationUI.py:244-247 | an error message is shown exactly when the map is rejected |
| Constants.RunPlotSection | BifurcationApp/BifurcationUI.py:244-259 | an error is shown exactly when `q` or `theta` is a key; the plot is requested exactly when the button is pressed, with the constants unchanged |
| Constants.ErrorDoesNotBlockPlot | BifurcationApp/BifurcationUI.py:244-259 | a map holding `q` shows the error and is still plotted when asked |
| Constants.ParameterIgnored | BifurcationApp/BifurcationUI.py:244-247 | the chosen degree-of-freedom name has no effect on the error |
| Constants.ParameterNameAccepted | BifurcationApp/BifurcationUI.py:244-247 | a constant named like a degree of freedom other than `q` or `theta` passes the check |
| Constants.QReportedFirst | BifurcationApp/BifurcationUI.py:244-247 | a map holding both `q` and `theta` shows only the `q` error |
| Constants.OtherKeysIrrelevant | BifurcationApp/BifurcationUI.py:244-247 | values, and keys other than `q` and `theta`, never change the verdict |
| Constants.RejectionMonotone | BifurcationApp/BifurcationUI.py:244-247 | adding constants never turns a rejected map into an accepted one |

## Left out

- The pyfurc solver (`BifurcationProblem`, `BifurcationProblemSolver`, `bf.solution.raw_data`) is foreign code. Its output enters the lookup as a list of branches.
- `eval` of the energy formula and of the constants text, and the injection into `globals()`, execute code dynamically. The constants map enters the check as a value.
- Streamlit widgets, session state, styling, and PIL image loading and display are user interface.
- reportlab's `drawString`, `drawImage`, `showPage`, `setFont` and `save` are I/O. They are recorded as drawn items with page, position, size and font size, in call order.
- Creating and deleting folders (`SAVE_DIR`, `delete_bifurcation_folders`) is file-system I/O.
- Matplotlib plotting, the red marker, the success and warning messages after the lookup, and the deformation drawings are display only.
- The exception handlers that show an error and return `None` are not modelled; nothing in the modelled code raises.
- Floating point is not modelled. `stringWidth` is exact integer arithmetic on glyph widths. The load comparison uses exact reals, with `1e-2` taken as 0.01.
- The Helvetica glyph-width table is a parameter (`glyph`), not the font's actual metrics.
- Python's `str` formatting of `P_max` and of the constants' values is not modelled. These values arrive as already-formatted strings.
- The column labels of the lookup table differ between the three copies (`Displacement (q)` or `Displacement (theta)`). Rows keep only the two numbers.
- Wrap.SearchSplit: the possibly endless inner loop is run with a fuel bound. `None` for every fuel value stands for non-termination, and `Wrap.SearchStopsIff` shows that `n + 1` iterations decide it.

## Findings

| source | as written | input that shows it | evidently intended | confidence | as-written member | corrected member |
|---|---|---|---|---|---|---|
| BifurcationApp/BifurcationUI.py:112-115 | The cut search walks down through the spaces. When no space gives a fitting prefix, `rfind` returns -1. The next width test then measures the line minus its last character. If that is still too wide, the search restarts from the last space and never ends, so in that case the -1 fallback on the next lines is never reached. It is reached only for a line with no fitting space whose `line[:-1]` fits. | The text "abcde" with every character one unit wide and a width limit of three units. Exactly: a piece with no space whose prefix fits, and whose `line[:-1]` is still too wide, at some stage of the wrap (`Wrap.AsWrittenHangsIff`). This includes a first word only one character too wide when more text follows, as in "abcd e" (`Wrap.OverlongFirstWordHangs`). | When no space gives a fitting prefix, emit the rest of the line whole, as the -1 fallback does. | not executed | Wrap.OverlongWordHangs | Wrap.WrapLine |

`Wrap.WrapLine` is the corrected wrap, and the rest of the model uses it. Its lines keep all the text (`Wrap.WrapLineKeepsText`) and fit except for uncuttable words (`Wrap.WrapLineFits`). It agrees with the code as written whenever that code terminates (`Wrap.AsWrittenAgrees`, `Report.ReportAgrees`).

=== FILE: constants.dfy ===
/**
  The check on the constants map in the "Stability Analysis" page of
  BifurcationApp/BifurcationUI.py. The map comes from evaluating the user's
  text; only its keys matter here. An error is shown when a key is `q`, or
  else when a key is `theta`. The page carries on either way: pressing "Plot"
  still calls `plot_bifurcation` with the same map.
 */
module Constants {
  import opened Maybe

  datatype Verdict = Accepted | HasQ | HasTheta

  /** The `if` / `elif` on the keys of the constants map. */
  function CheckConstants<V>(constants: map<string, V>): (v: Verdict)
    ensures v == HasQ <==> "q" in constants
    ensures v == HasTheta <==> "q" !in constants && "theta" in constants
    ensures v == Accepted <==> "q" !in constants && "theta" !in constants
  {
    if "q" in constants then HasQ
    else if "theta" in constants then HasTheta
    else Accepted
  }

  /** The text `st.error` shows for a verdict. */
  function ErrorText(v: Verdict): (text: Option<string>)
    ensures text.None? <==> v == Accepted
  {
    match v
    case Accepted => None
    case HasQ => Some("Constants should not contain 'q'. Please remove it.")
    case HasTheta => Some("Constants should not contain 'theta'. Please remove it.")
  }

  /** The arguments handed to `plot_bifurcation`. */
  datatype PlotCall<V> = PlotCall(pMax: real, parameter: string, energyFormula: string, constants: map<string, V>)

  /** What one run of the page's plot section does: the error shown, and the plot call made. */
  datatype PageRun<V> = PageRun(error: Option<string>, plot: Option<PlotCall<V>>)

  /** The check, then the "Plot" button. */
  function RunPlotSection<V>(pMax: real, parameter: string, energyFormula: string,
                             constants: map<string, V>, plotPressed: bool): (run: PageRun<V>)
    ensures run.error.Some? <==> "q" in constants || "theta" in constants
    ensures run.plot.Some? <==> plotPressed
    ensures run.plot.Some? ==> run.plot.value == PlotCall(pMax, parameter, energyFormula, constants)
  {
    PageRun(ErrorText(CheckConstants(constants)),
            if plotPressed then Some(PlotCall(pMax, parameter, energyFormula, constants)) else None)
  }

  /** The error never stops the plot: a map with `q` is still plotted when asked. */
  lemma ErrorDoesNotBlockPlot(pMax: real, parameter: string, energyFormula: string)
    ensures var run := RunPlotSection(pMax, parameter, energyFormula, map["q" := 1.0], true);
      run.error == Some("Constants should not contain 'q'. Please remove it.")
      && run.plot == Some(PlotCall(pMax, parameter, energyFormula, map["q" := 1.0]))
  {
  }

  /** The chosen degree of freedom plays no part in the check. */
  lemma ParameterIgnored<V>(pMax: real, p1: string, p2: string, energyFormula: string,
                            constants: map<string, V>, plotPressed: bool)
    ensures RunPlotSection(pMax, p1, energyFormula, constants, plotPressed).error
         == RunPlotSection(pMax, p2, energyFormula, constants, plotPressed).error
  {
  }

  /** A constant named like the chosen degree of freedom passes, unless that name is `q` or `theta`. */
  lemma ParameterNameAccepted<V>(parameter: string, value: V)
    requires parameter != "q" && parameter != "theta"
    ensures CheckConstants(map[parameter := value]) == Accepted
  {
  }

  /** `q` is reported before `theta`: a map holding both shows only the `q` error. */
  lemma QReportedFirst<V>(constants: map<string, V>)
    requires "q" in constants && "theta" in constants
    ensures ErrorText(CheckConstants(constants)) == Some("Constants should not contain 'q'. Please remove it.")
  {
  }

  /** Values never matter, and neither do keys other than `q` and `theta`. */
  lemma OtherKeysIrrelevant<V>(constants: map<string, V>, key: string, value: V)
    requires key != "q" && key != "theta"
    ensures CheckConstants(constants[key := value]) == CheckConstants(constants)
    ensures CheckConstants(map k | k in constants :: value) == CheckConstants(constants)
  {
  }

  /** Adding constants never turns a rejected map into an accepted one. */
  lemma RejectionMonotone<V>(small: map<string, V>, large: map<string, V>)
    requires small.Keys <= large.Keys
    requires CheckConstants(small) != Accepted
    ensures CheckConstants(large) != Accepted
  {
  }
}

=== FILE: layout.dfy ===
/**
  Page layout of the PDF report written by `save_pdf`
  (BifurcationApp/BifurcationUI.py): a cursor `text_y` walks down a US-letter
  page from 750 points, one text line every 14 points, and a new page starts
  whenever the cursor has reached the bottom margin of 50 points. Images are
  400 by 300 points and are placed below the cursor when there is room.

  Positions are in PDF points, with y growing upwards. Drawing calls are
  recorded as `Item`s in the order the source issues them; `page` counts the
  `showPage` calls made before the item.
 */
module Layout {
  import opened Maybe
  import opened PyStr
  import opened Wrap

  const PageTop: int := 750
  const BottomMargin: int := 50
  const LineHeight: int := 14
  const TextX: int := 100
  /** The width of a US-letter page, `letter[0]`. */
  const LetterWidth: int := 612
  /** The text width, `letter[0] - 2 * text_x`. */
  const PageWidth: nat := LetterWidth - 2 * TextX
  const ImageWidth: nat := 400
  const ImageHeight: nat := 300
  /** How far the cursor moves down past the sketch. */
  const ImageAdvance: int := 320
  /** Lines that fit on one page starting at the top. */
  const LinesPerPage: nat := 50

  /** The page and the vertical position `text_y` of the next line. */
  datatype Cursor = Cursor(page: nat, y: int)

  datatype Kind = Sketch | Plot

  /** One `drawString` or `drawImage` call; `y` is the baseline or the image's lower edge. */
  datatype Item =
    | Text(page: nat, x: int, y: int, size: nat, text: string)
    | Picture(page: nat, x: int, y: int, width: nat, height: nat, kind: Kind)

  /** Items drawn by one step, and the cursor after it. */
  datatype Placed = Placed(cursor: Cursor, items: seq<Item>)

  function Top(item: Item): int {
    if item.Text? then item.y else item.y + item.height
  }

  function Bottom(item: Item): int {
    item.y
  }

  /** The item lies wholly between the bottom margin and the top of the page. */
  predicate OnPage(item: Item) {
    BottomMargin < Bottom(item) && Top(item) <= PageTop
  }

  predicate AllOnPage(items: seq<Item>) {
    forall i :: 0 <= i < |items| ==> OnPage(items[i])
  }

  predicate AllText(items: seq<Item>) {
    forall i :: 0 <= i < |items| ==> items[i].Text?
  }

  lemma AllOnPageAppend(a: seq<Item>, b: seq<Item>)
    requires AllOnPage(a) && AllOnPage(b)
    ensures AllOnPage(a + b)
  {
    var ab := a + b;
    forall i | 0 <= i < |ab| ensures OnPage(ab[i]) {
      if i < |a| { assert ab[i] == a[i]; } else { assert ab[i] == b[i - |a|]; }
    }
  }

  function Max(a: int, b: int): int {
    if a < b then b else a
  }

  // ---------------------------------------------------------------------------
  // Reading order

  /** `a` comes before `b` on the paper: an earlier page, or wholly above `b`. */
  predicate Precedes(a: Item, b: Item) {
    a.page < b.page || (a.page == b.page && Top(b) < Bottom(a))
  }

  predicate Ordered(items: seq<Item>) {
    forall i, j :: 0 <= i < j < |items| ==> Precedes(items[i], items[j])
  }

  /** `x` lies at or below the cursor `c`. */
  predicate AtOrAfter(c: Cursor, x: Item) {
    x.page > c.page || (x.page == c.page && Top(x) <= c.y)
  }

  /** `x` lies strictly above the cursor `c`. */
  predicate Above(x: Item, c: Cursor) {
    x.page < c.page || (x.page == c.page && Bottom(x) > c.y)
  }

  /** The cursor never moves back up the document. */
  predicate Advances(c: Cursor, d: Cursor) {
    c.page < d.page || (c.page == d.page && d.y <= c.y)
  }

  /**
    A step started at `start` drew its items in reading order, all of them at
    or below `start` and above the cursor it leaves behind.
   */
  predicate Spans(start: Cursor, p: Placed) {
    && Advances(start, p.cursor)
    && Ordered(p.items)
    && (forall i :: 0 <= i < |p.items| ==> AtOrAfter(start, p.items[i]) && Above(p.items[i], p.cursor))
  }

  lemma SpansEmpty(c: Cursor)
    ensures Spans(c, Placed(c, []))
  {
  }

  /** Steps run one after another keep the reading order: the cursor carries it over. */
  lemma SpansAppend(start: Cursor, p: Placed, q: Placed)
    requires Spans(start, p) && Spans(p.cursor, q)
    ensures Spans(start, Placed(q.cursor, p.items + q.items))
  {
    var items := p.items + q.items;
    forall i, j | 0 <= i < j < |items| ensures Precedes(items[i], items[j]) {
      if j < |p.items| {
        assert items[i] == p.items[i] && items[j] == p.items[j];
      } else if i >= |p.items| {
        assert items[i] == q.items[i - |p.items|] && items[j] == q.items[j - |p.items|];
      } else {
        assert items[i] == p.items[i] && items[j] == q.items[j - |p.items|];
        assert Above(items[i], p.cursor) && AtOrAfter(p.cursor, items[j]);
        assert Bottom(items[j]) <= Top(items[j]);
      }
    }
    forall i | 0 <= i < |items| ensures AtOrAfter(start, items[i]) && Above(items[i], q.cursor) {
      if i < |p.items| {
        assert items[i] == p.items[i];
      } else {
        assert items[i] == q.items[i - |p.items|];
      }
    }
  }

  /** A final item that lies at or below the cursor keeps the reading order. */
  lemma OrderedSnoc(start: Cursor, p: Placed, x: Item)
    requires Spans(start, p) && AtOrAfter(p.cursor, x)
    ensures Ordered(p.items + [x])
    ensures forall i :: 0 <= i < |p.items| + 1 ==> AtOrAfter(start, (p.items + [x])[i])
  {
    var items := p.items + [x];
    forall i, j | 0 <= i < j < |items| ensures Precedes(items[i], items[j]) {
      assert items[i] == p.items[i];
      if j == |p.items| {
        assert Above(items[i], p.cursor);
        assert Bottom(x) <= Top(x);
      } else {
        assert items[j] == p.items[j];
      }
    }
    forall i | 0 <= i < |items| ensures AtOrAfter(start, items[i]) {
      if i < |p.items| {
        assert items[i] == p.items[i];
      }
    }
  }

  // ---------------------------------------------------------------------------
  // Text lines

  /** The position of the next line: a fresh page once the cursor is at or below the margin. */
  function LineStart(cur: Cursor): (at: Cursor)
    ensures at.y > BottomMargin
    ensures at.y <= Max(cur.y, PageTop)
    ensures cur.y > BottomMargin ==> at == cur
    ensures cur.y <= BottomMargin ==> at == Cursor(cur.page + 1, PageTop)
  {
    if cur.y <= BottomMargin then Cursor(cur.page + 1, PageTop) else cur
  }

  /** The drawing loop of `add_text`: one line per 14 points, breaking pages at the margin. */
  function DrawLines(cur: Cursor, size: nat, lines: seq<string>): (p: Placed)
    ensures |p.items| == |lines|
    decreases |lines|
  {
    if lines == [] then Placed(cur, [])
    else
      var at := LineStart(cur);
      var rest := DrawLines(Cursor(at.page, at.y - LineHeight), size, lines[1..]);
      Placed(rest.cursor, [Text(at.page, TextX, at.y, size, lines[0])] + rest.items)
  }

  /** The text of the text items, in drawing order. */
  function Texts(items: seq<Item>): seq<string>
    decreases |items|
  {
    if items == [] then []
    else (if items[0].Text? then [items[0].text] else []) + Texts(items[1..])
  }

  lemma {:induction false} TextsAppend(a: seq<Item>, b: seq<Item>)
    ensures Texts(a + b) == Texts(a) + Texts(b)
    decreases |a|
  {
    if a == [] {
      assert a + b == b;
    } else {
      assert (a + b)[1..] == a[1..] + b;
      TextsAppend(a[1..], b);
    }
  }

  /** Every line is drawn, once, in order, as a text item of the current font size. */
  lemma {:induction false} DrawLinesKeepsLines(cur: Cursor, size: nat, lines: seq<string>)
    ensures Texts(DrawLines(cur, size, lines).items) == lines
    ensures forall i :: 0 <= i < |lines| ==>
      var item := DrawLines(cur, size, lines).items[i];
      item.Text? && item.x == TextX && item.size == size && item.text == lines[i]
    decreases |lines|
  {
    if lines != [] {
      var at := LineStart(cur);
      var next := Cursor(at.page, at.y - LineHeight);
      DrawLinesKeepsLines(next, size, lines[1..]);
      var items := DrawLines(cur, size, lines).items;
      assert items == [Text(at.page, TextX, at.y, size, lines[0])] + DrawLines(next, size, lines[1..]).items;
      assert items[1..] == DrawLines(next, size, lines[1..]).items;
      forall i | 1 <= i < |lines| ensures items[i] == DrawLines(next, size, lines[1..]).items[i - 1] && lines[i] == lines[1..][i - 1] {
      }
    }
  }

  /**
    Every line is drawn strictly above the bottom margin and no higher than
    the top of the page or the starting cursor, and the cursor is left 14
    points below the last line.
   */
  lemma {:induction false} DrawLinesInBand(cur: Cursor, size: nat, lines: seq<string>)
    ensures forall i :: 0 <= i < |lines| ==>
      BottomMargin < DrawLines(cur, size, lines).items[i].y <= Max(cur.y, PageTop)
    ensures lines != [] ==>
      var p := DrawLines(cur, size, lines);
      p.cursor == Cursor(p.items[|lines| - 1].page, p.items[|lines| - 1].y - LineHeight)
    ensures lines == [] ==> DrawLines(cur, size, lines).cursor == cur
    decreases |lines|
  {
    if lines != [] {
      var at := LineStart(cur);
      var next := Cursor(at.page, at.y - LineHeight);
      DrawLinesInBand(next, size, lines[1..]);
      var items := DrawLines(cur, size, lines).items;
      var rest := DrawLines(next, size, lines[1..]).items;
      assert items == [Text(at.page, TextX, at.y, size, lines[0])] + rest;
      forall i | 1 <= i < |lines| ensures items[i] == rest[i - 1] {
      }
    }
  }

  /** The drawn lines follow the cursor down the pages in reading order. */
  lemma {:induction false} DrawLinesSpans(cur: Cursor, size: nat, lines: seq<string>)
    ensures Spans(cur, DrawLines(cur, size, lines))
    decreases |lines|
  {
    if lines != [] {
      var at := LineStart(cur);
      var next := Cursor(at.page, at.y - LineHeight);
      DrawLinesSpans(next, size, lines[1..]);
      var first := Text(at.page, TextX, at.y, size, lines[0]);
      var rest := DrawLines(next, size, lines[1..]);
      var items := [first] + rest.items;
      assert DrawLines(cur, size, lines) == Placed(rest.cursor, items);
      forall i, j | 0 <= i < j < |items| ensures Precedes(items[i], items[j]) {
        assert items[j] == rest.items[j - 1];
        if i > 0 {
          assert items[i] == rest.items[i - 1];
        } else {
          assert AtOrAfter(next, rest.items[j - 1]);
        }
      }
      forall i | 0 <= i < |items| ensures AtOrAfter(cur, items[i]) && Above(items[i], rest.cursor) {
        if i > 0 {
          assert items[i] == rest.items[i - 1];
        }
      }
    }
  }

  /**
    `text_y` carries over between calls: drawing `a` and then `b` from where
    `a` stopped is the same as drawing `a + b` at once.
   */
  lemma {:induction false} DrawLinesAppend(cur: Cursor, size: nat, a: seq<string>, b: seq<string>)
    ensures var p := DrawLines(cur, size, a);
      var q := DrawLines(p.cursor, size, b);
      DrawLines(cur, size, a + b) == Placed(q.cursor, p.items + q.items)
    decreases |a|
  {
    if a == [] {
      assert a + b == b;
    } else {
      var at := LineStart(cur);
      var next := Cursor(at.page, at.y - LineHeight);
      assert (a + b)[1..] == a[1..] + b;
      DrawLinesAppend(next, size, a[1..], b);
    }
  }

  /** The page of the `k`-th line position counted from the top of page `page`. */
  function LinePage(page: nat, k: nat): nat {
    page + k / LinesPerPage
  }

  /** The baseline of the `k`-th line position counted from the top of a page. */
  function LineY(k: nat): int {
    PageTop - LineHeight * (k % LinesPerPage)
  }

  /**
    From the `j`-th line position of a page, line `i` lands on page
    `page + (j + i) / 50` at `750 - 14 * ((j + i) % 50)`: fifty lines to a page.
   */
  lemma {:induction false} DrawLinesPages(cur: Cursor, j: nat, size: nat, lines: seq<string>)
    requires j <= LinesPerPage && cur.y == PageTop - LineHeight * j
    ensures forall i :: 0 <= i < |lines| ==>
      var item := DrawLines(cur, size, lines).items[i];
      item.page == LinePage(cur.page, j + i) && item.y == LineY(j + i)
    decreases |lines|
  {
    if lines != [] {
      var items := DrawLines(cur, size, lines).items;
      var page := cur.page;
      if j == LinesPerPage {
        var next := Cursor(page + 1, PageTop - LineHeight * 1);
        assert LineStart(cur) == Cursor(page + 1, PageTop);
        DrawLinesPages(next, 1, size, lines[1..]);
        var rest := DrawLines(next, size, lines[1..]).items;
        assert items == [Text(page + 1, TextX, PageTop, size, lines[0])] + rest;
        forall i | 0 <= i < |items|
          ensures items[i].page == LinePage(page, j + i) && items[i].y == LineY(j + i)
        {
          NextPage(page, i);
          if i > 0 {
            assert items[i] == rest[i - 1];
          }
        }
      } else {
        var next := Cursor(page, PageTop - LineHeight * (j + 1));
        assert LineStart(cur) == cur;
        DrawLinesPages(next, j + 1, size, lines[1..]);
        var rest := DrawLines(next, size, lines[1..]).items;
        assert items == [Text(page, TextX, PageTop - LineHeight * j, size, lines[0])] + rest;
        forall i | 0 <= i < |items|
          ensures items[i].page == LinePage(page, j + i) && items[i].y == LineY(j + i)
        {
          if i > 0 {
            assert items[i] == rest[i - 1];
          } else {
            SamePage(page, j);
          }
        }
      }
    }
  }

  lemma NextPage(page: nat, i: nat)
    ensures LinePage(page, LinesPerPage + i) == LinePage(page + 1, i)
    ensures LineY(LinesPerPage + i) == LineY(i)
    ensures LinePage(page, LinesPerPage) == page + 1 && LineY(LinesPerPage) == PageTop
  {
  }

  lemma SamePage(page: nat, j: nat)
    requires j < LinesPerPage
    ensures LinePage(page, j) == page && LineY(j) == PageTop - LineHeight * j
  {
  }

  // ---------------------------------------------------------------------------
  // add_text

  /**
    The width metric of `stringWidth` at font size `size`: glyph widths are
    given in thousandths of an em, so a line fits the 412-point text width
    exactly when `size` times its glyph widths sums to at most 412000.
   */
  function Advance(glyph: char -> nat, size: nat): char -> nat {
    c => size * glyph(c)
  }

  const WidthLimit: nat := PageWidth * 1000

  /** `add_text(text, size)` with the intended cut rule. */
  function AddText(cur: Cursor, size: nat, text: string, glyph: char -> nat): Placed {
    DrawLines(cur, size, WrapText(text, Advance(glyph, size), WidthLimit))
  }

  /** `add_text(text, size)` as written: `None` when the wrap never finishes. */
  function AddTextAsWritten(cur: Cursor, size: nat, text: string, glyph: char -> nat): Option<Placed> {
    match WrapTextAsWritten(text, Advance(glyph, size), WidthLimit)
    case None => None
    case Some(lines) => Some(DrawLines(cur, size, lines))
  }

  /**
    The source's `add_text` returns exactly when no piece of the text hangs
    its wrap, and then draws what `AddText` draws.
   */
  lemma AddTextAgrees(cur: Cursor, size: nat, text: string, glyph: char -> nat)
    ensures AddTextAsWritten(cur, size, text, glyph).None? <==>
      AnyHangs(SplitOn(text, '\n'), Advance(glyph, size), WidthLimit)
    ensures AddTextAsWritten(cur, size, text, glyph).Some? ==>
      AddTextAsWritten(cur, size, text, glyph).value == AddText(cur, size, text, glyph)
  {
    AsWrittenTextAgrees(text, Advance(glyph, size), WidthLimit);
  }

  /** Lines drawn from a cursor on the page: in reading order, inside the margins, all text. */
  lemma DrawLinesSound(cur: Cursor, size: nat, lines: seq<string>)
    requires cur.y <= PageTop
    ensures var p := DrawLines(cur, size, lines);
      && Spans(cur, p)
      && Texts(p.items) == lines
      && AllText(p.items) && AllOnPage(p.items)
      && p.cursor.y <= PageTop
  {
    DrawLinesSpans(cur, size, lines);
    DrawLinesKeepsLines(cur, size, lines);
    DrawLinesInBand(cur, size, lines);
  }

  /** `add_text` draws the wrapped lines of its text, in reading order, inside the margins. */
  lemma AddTextSound(cur: Cursor, size: nat, text: string, glyph: char -> nat)
    requires cur.y <= PageTop
    ensures var p := AddText(cur, size, text, glyph);
      && Spans(cur, p)
      && Texts(p.items) == WrapText(text, Advance(glyph, size), WidthLimit)
      && NonSpace(Concat(Texts(p.items))) == NonSpace(text)
      && AllText(p.items) && AllOnPage(p.items)
      && p.cursor.y <= PageTop
  {
    var lines := WrapText(text, Advance(glyph, size), WidthLimit);
    assert AddText(cur, size, text, glyph) == DrawLines(cur, size, lines);
    DrawLinesSound(cur, size, lines);
    WrapTextKeepsText(text, Advance(glyph, size), WidthLimit);
  }

  // ---------------------------------------------------------------------------
  // Images

  /**
    The uploaded sketch: on a new page unless its lower edge would be above
    the margin, then the cursor moves 320 points down.
   */
  function PlaceSketch(cur: Cursor): Placed {
    var at := if cur.y - ImageHeight <= BottomMargin then Cursor(cur.page + 1, PageTop) else cur;
    Placed(Cursor(at.page, at.y - ImageAdvance), [Picture(at.page, TextX, at.y - ImageHeight, ImageWidth, ImageHeight, Sketch)])
  }

  /**
    The sketch lies wholly between the margin and the top of the page, in
    reading order. It starts a new page exactly when its lower edge would
    reach the margin, its top is then the page top and otherwise the cursor,
    and the cursor ends 20 points under its lower edge.
   */
  lemma PlaceSketchSound(cur: Cursor)
    requires cur.y <= PageTop
    ensures var p := PlaceSketch(cur);
      && Spans(cur, p)
      && |p.items| == 1
      && p.items[0].Picture? && p.items[0].kind == Sketch
      && p.items[0].x == TextX && p.items[0].width == ImageWidth && p.items[0].height == ImageHeight
      && OnPage(p.items[0])
      && (p.items[0].page == cur.page + 1 <==> cur.y - ImageHeight <= BottomMargin)
      && (p.items[0].page == cur.page <==> BottomMargin < cur.y - ImageHeight)
      && Top(p.items[0]) == (if cur.y - ImageHeight <= BottomMargin then PageTop else cur.y)
      && p.cursor == Cursor(p.items[0].page, Bottom(p.items[0]) - 20)
      && p.cursor.y == Top(p.items[0]) - ImageAdvance
      && p.cursor.y <= PageTop
  {
  }

  /**
    The bifurcation plot: the room check runs first, then the caption
    "\nPlot:" is drawn in 16 points, and the plot goes 300 points below the
    cursor the caption leaves. The cursor does not move past the plot.
   */
  function PlacePlot(cur: Cursor, glyph: char -> nat): Placed {
    WithPlot(AddText(PlotStart(cur), 16, "\nPlot:", glyph))
  }

  /** The plot drawn 300 points below the cursor the caption left, which stays where it is. */
  function WithPlot(caption: Placed): Placed {
    var c := caption.cursor;
    Placed(c, caption.items + [Picture(c.page, TextX, c.y - ImageHeight, ImageWidth, ImageHeight, Plot)])
  }

  /** `PlacePlot` as written: `None` when the caption's wrap never finishes. */
  function PlacePlotAsWritten(cur: Cursor, glyph: char -> nat): Option<Placed> {
    match AddTextAsWritten(PlotStart(cur), 16, "\nPlot:", glyph)
    case None => None
    case Some(caption) => Some(WithPlot(caption))
  }

  lemma PlacePlotAgrees(cur: Cursor, glyph: char -> nat)
    ensures PlacePlotAsWritten(cur, glyph).None? <==>
      AnyHangs(SplitOn("\nPlot:", '\n'), Advance(glyph, 16), WidthLimit)
    ensures PlacePlotAsWritten(cur, glyph).Some? ==> PlacePlotAsWritten(cur, glyph).value == PlacePlot(cur, glyph)
  {
    AddTextAgrees(PlotStart(cur), 16, "\nPlot:", glyph);
  }

  /** The caption text splits into an empty piece and "Plot:". */
  lemma CaptionPieces()
    ensures SplitOn("\nPlot:", '\n') == ["", "Plot:"]
  {
    var pieces: seq<string> := ["", "Plot:"];
    assert Join(pieces[1..], '\n') == "Plot:";
    assert Join(pieces, '\n') == "\nPlot:";
    assert '\n' !in pieces[0] && '\n' !in pieces[1];
    SplitJoin(pieces, '\n');
  }

  lemma CaptionStripped()
    ensures Strip("Plot:") == "Plot:"
  {
    assert !IsSpace('P') && !IsSpace(':');
    assert StripStart("Plot:") == 0;
    assert StripEnd("Plot:") == 5;
  }

  /** The caption is always the empty line and "Plot:", whatever the font metrics. */
  lemma PlotCaption(glyph: char -> nat)
    ensures WrapText("\nPlot:", Advance(glyph, 16), WidthLimit) == ["", "Plot:"]
  {
    var adv := Advance(glyph, 16);
    var pieces: seq<string> := ["", "Plot:"];
    CaptionPieces();
    CaptionStripped();
    NoSpaceLineWhole("Plot:", adv, WidthLimit);
    assert WrapPiece("", adv, WidthLimit) == [""];
    assert WrapPiece("Plot:", adv, WidthLimit) == ["Plot:"];
    assert pieces[1..][1..] == [];
    assert WrapPieces(pieces[1..], adv, WidthLimit) == ["Plot:"];
  }

  /**
    Where the plot check leaves the cursor: a new page exactly when a
    300-point image would reach the margin, otherwise the cursor unchanged.
   */
  function PlotStart(cur: Cursor): (at: Cursor)
    ensures BottomMargin < cur.y - ImageHeight ==> at == cur
    ensures cur.y - ImageHeight <= BottomMargin ==> at == Cursor(cur.page + 1, PageTop)
    ensures at.y > BottomMargin + ImageHeight
    ensures at.y <= Max(cur.y, PageTop)
    ensures Advances(cur, at)
  {
    if cur.y - ImageHeight <= BottomMargin then Cursor(cur.page + 1, PageTop) else cur
  }

  /**
    The room check happens before the two caption lines, so the plot's lower
    edge is only guaranteed to be 28 points lower than the check demands:
    above 22 points, not above the 50-point margin.
   */
  lemma PlacePlotSound(cur: Cursor, glyph: char -> nat)
    requires cur.y <= PageTop
    ensures var p := PlacePlot(cur, glyph);
      && |p.items| == 3
      && Texts(p.items[..2]) == ["", "Plot:"]
      && (forall i :: 0 <= i < 2 ==> p.items[i].Text? && OnPage(p.items[i]))
      && p.items[2].Picture? && p.items[2].kind == Plot && p.items[2].page == PlotStart(cur).page
      && p.items[2].x == TextX && p.items[2].width == ImageWidth && p.items[2].height == ImageHeight
      && Bottom(p.items[2]) == PlotStart(cur).y - 2 * LineHeight - ImageHeight
      && BottomMargin - 2 * LineHeight < Bottom(p.items[2]) && Top(p.items[2]) <= PageTop
      && Ordered(p.items)
      && forall i :: 0 <= i < 3 ==> AtOrAfter(cur, p.items[i])
  {
    var at := PlotStart(cur);
    var caption := AddText(at, 16, "\nPlot:", glyph);
    CaptionPlaced(at, glyph);
    WithPlotSound(cur, at, caption);
  }

  /** The caption: two text lines inside the margins, leaving the cursor 28 points lower. */
  lemma CaptionPlaced(at: Cursor, glyph: char -> nat)
    requires BottomMargin + ImageHeight < at.y <= PageTop
    ensures var caption := AddText(at, 16, "\nPlot:", glyph);
      && Spans(at, caption) && |caption.items| == 2 && Texts(caption.items) == ["", "Plot:"]
      && (forall i :: 0 <= i < 2 ==> caption.items[i].Text? && OnPage(caption.items[i]))
      && caption.cursor == Cursor(at.page, at.y - 2 * LineHeight)
  {
    PlotCaption(glyph);
    var lines: seq<string> := ["", "Plot:"];
    DrawLinesSpans(at, 16, lines);
    DrawLinesKeepsLines(at, 16, lines);
    DrawLinesInBand(at, 16, lines);
    DrawLinesPlotCaption(at, lines);
  }

  lemma WithPlotSound(cur: Cursor, at: Cursor, caption: Placed)
    requires at == PlotStart(cur) && cur.y <= PageTop
    requires Spans(at, caption) && Texts(caption.items) == ["", "Plot:"] && |caption.items| == 2
    requires forall i :: 0 <= i < 2 ==> caption.items[i].Text? && OnPage(caption.items[i])
    requires caption.cursor == Cursor(at.page, at.y - 2 * LineHeight)
    ensures var p := WithPlot(caption);
      && |p.items| == 3
      && Texts(p.items[..2]) == ["", "Plot:"]
      && (forall i :: 0 <= i < 2 ==> p.items[i].Text? && OnPage(p.items[i]))
      && p.items[2].Picture? && p.items[2].kind == Plot && p.items[2].page == at.page
      && Bottom(p.items[2]) == at.y - 2 * LineHeight - ImageHeight
      && BottomMargin - 2 * LineHeight < Bottom(p.items[2]) && Top(p.items[2]) <= PageTop
      && Ordered(p.items)
      && forall i :: 0 <= i < 3 ==> AtOrAfter(cur, p.items[i])
  {
    var p := WithPlot(caption);
    var c := caption.cursor;
    var pic := Picture(c.page, TextX, c.y - ImageHeight, ImageWidth, ImageHeight, Plot);
    assert p.items == caption.items + [pic];
    assert p.items[..2] == caption.items;
    OrderedSnoc(at, caption, pic);
    forall i | 0 <= i < 3 ensures AtOrAfter(cur, p.items[i]) {
      assert AtOrAfter(at, p.items[i]);
    }
  }

  lemma DrawLinesPlotCaption(at: Cursor, lines: seq<string>)
    requires |lines| == 2 && at.y > BottomMargin + ImageHeight
    ensures DrawLines(at, 16, lines).cursor == Cursor(at.page, at.y - 2 * LineHeight)
  {
    var next := Cursor(at.page, at.y - LineHeight);
    var last := Cursor(at.page, at.y - 2 * LineHeight);
    assert lines[1..][1..] == [];
    assert DrawLines(last, 16, lines[1..][1..]).cursor == last;
    assert DrawLines(next, 16, lines[1..]).cursor == last;
    assert DrawLines(at, 16, lines).cursor == DrawLines(next, 16, lines[1..]).cursor;
  }

  /**
    The margin is not kept: with the cursor at 358 points, where 28 lines on
    the first page leave it, the check passes and the plot's lower edge lands
    at 30 points, inside the 50-point margin.
   */
  lemma PlotBelowMargin(glyph: char -> nat)
    ensures var p := PlacePlot(Cursor(0, PageTop - LineHeight * 28), glyph);
      |p.items| == 3 && Bottom(p.items[2]) == 30 && Bottom(p.items[2]) < BottomMargin
  {
    PlacePlotSound(Cursor(0, 358), glyph);
  }
}

=== FILE: lookup.dfy ===
/**
  The load-to-displacement lookup run after every solve in
  BifurcationApp/BifurcationUI.py (`calculate_and_plot_q_asym_bifurc`,
  `calculate_and_plot_theta_sym_bifurc` and
  `calculate_and_plot_q_unstable_sym_bifurc` hold identical copies). The
  solver's branches are scanned in order; every `(PAR(1), U(1))` sample
  becomes a table row, and the displacement of the last sample whose load lies
  within 0.01 of the requested load is reported.
 */
module Lookup {
  import opened Maybe

  /** One solution branch: the `PAR(1)` (load) and `U(1)` (displacement) columns. */
  datatype Branch = Branch(par: seq<real>, u: seq<real>)

  /** One row of `raw_data_list`: a load and its displacement. */
  datatype Row = Row(load: real, displacement: real)

  /** The tolerance `1e-2`, taken as an exact rational. */
  const Tolerance: real := 0.01

  function Abs(x: real): real {
    if x < 0.0 then -x else x
  }

  /** `abs(par_value - load) < 1e-2`. */
  predicate Near(par: real, load: real) {
    Abs(par - load) < Tolerance
  }

  function Min(a: nat, b: nat): nat {
    if a < b then a else b
  }

  /** The rows of one branch: `zip` stops at the shorter column. */
  function BranchRows(b: Branch): (rows: seq<Row>)
    ensures |rows| == Min(|b.par|, |b.u|)
    ensures forall k :: 0 <= k < |rows| ==> rows[k] == Row(b.par[k], b.u[k])
  {
    seq(Min(|b.par|, |b.u|), k requires 0 <= k < Min(|b.par|, |b.u|) => Row(b.par[k], b.u[k]))
  }

  /** The rows of all branches, branch after branch. */
  function AllRows(branches: seq<Branch>): seq<Row>
    decreases |branches|
  {
    if branches == [] then [] else AllRows(branches[..|branches| - 1]) + BranchRows(branches[|branches| - 1])
  }

  /** The displacement of the last row whose load is near `load`, if any. */
  function LastNear(rows: seq<Row>, load: real): Option<real>
    decreases |rows|
  {
    if rows == [] then None
    else if Near(rows[|rows| - 1].load, load) then Some(rows[|rows| - 1].displacement)
    else LastNear(rows[..|rows| - 1], load)
  }

  /**
    `LastNear` is `None` exactly when no row is near, and otherwise the
    displacement of a near row after which no row is near.
   */
  lemma {:induction false} LastNearSpec(rows: seq<Row>, load: real)
    ensures LastNear(rows, load).None? <==> forall i :: 0 <= i < |rows| ==> !Near(rows[i].load, load)
    ensures LastNear(rows, load).Some? ==>
      exists i :: 0 <= i < |rows| && Near(rows[i].load, load)
        && LastNear(rows, load).value == rows[i].displacement
        && forall j :: i < j < |rows| ==> !Near(rows[j].load, load)
    decreases |rows|
  {
    if rows != [] {
      var front := rows[..|rows| - 1];
      LastNearSpec(front, load);
      if !Near(rows[|rows| - 1].load, load) {
        forall i | 0 <= i < |front| ensures front[i] == rows[i] {
        }
        if LastNear(front, load).Some? {
          var i :| 0 <= i < |front| && Near(front[i].load, load)
            && LastNear(front, load).value == front[i].displacement
            && forall j :: i < j < |front| ==> !Near(front[j].load, load);
          assert rows[i] == front[i];
        }
      }
    }
  }

  /** Scanning more rows: a later match wins, otherwise the earlier answer stands. */
  lemma {:induction false} LastNearAppend(a: seq<Row>, b: seq<Row>, load: real)
    ensures LastNear(a + b, load) == if LastNear(b, load).Some? then LastNear(b, load) else LastNear(a, load)
    decreases |b|
  {
    if b == [] {
      assert a + b == a;
    } else {
      assert (a + b)[..|a + b| - 1] == a + b[..|b| - 1];
      LastNearAppend(a, b[..|b| - 1], load);
    }
  }

  lemma {:induction false} AllRowsAppend(a: seq<Branch>, b: seq<Branch>)
    ensures AllRows(a + b) == AllRows(a) + AllRows(b)
    decreases |b|
  {
    if b == [] {
      assert a + b == a;
    } else {
      var ab := a + b;
      var front := b[..|b| - 1];
      var last := BranchRows(b[|b| - 1]);
      assert ab[..|ab| - 1] == a + front && ab[|ab| - 1] == b[|b| - 1];
      assert AllRows(ab) == AllRows(a + front) + last;
      AllRowsAppend(a, front);
      assert AllRows(b) == AllRows(front) + last;
    }
  }

  /** A match in a later branch overrides every match in the earlier ones. */
  lemma LaterBranchWins(a: seq<Branch>, b: seq<Branch>, load: real)
    ensures LastNear(AllRows(a + b), load) ==
      if LastNear(AllRows(b), load).Some? then LastNear(AllRows(b), load) else LastNear(AllRows(a), load)
  {
    AllRowsAppend(a, b);
    LastNearAppend(AllRows(a), AllRows(b), load);
  }

  /** The number of zipped samples over all branches. */
  function Samples(branches: seq<Branch>): nat
    decreases |branches|
  {
    if branches == [] then 0 else Samples(branches[..|branches| - 1]) + Min(|branches[|branches| - 1].par|, |branches[|branches| - 1].u|)
  }

  /** One row per zipped sample, none more. */
  lemma {:induction false} RowCount(branches: seq<Branch>)
    ensures |AllRows(branches)| == Samples(branches)
    decreases |branches|
  {
    if branches != [] {
      RowCount(branches[..|branches| - 1]);
    }
  }

  /** The number of rows that precede branch `b`. */
  function Offset(branches: seq<Branch>, b: nat): nat
    requires b <= |branches|
  {
    |AllRows(branches[..b])|
  }

  /**
    Rows come in branch-then-sample order: sample `k` of branch `b` sits
    right after the rows of the branches before it.
   */
  lemma RowPosition(branches: seq<Branch>, b: nat, k: nat)
    requires b < |branches| && k < Min(|branches[b].par|, |branches[b].u|)
    ensures Offset(branches, b) + k < |AllRows(branches)|
    ensures AllRows(branches)[Offset(branches, b) + k] == Row(branches[b].par[k], branches[b].u[k])
  {
    assert branches == branches[..b] + [branches[b]] + branches[b + 1..];
    AllRowsAppend(branches[..b] + [branches[b]], branches[b + 1..]);
    AllRowsAppend(branches[..b], [branches[b]]);
    assert AllRows([branches[b]]) == AllRows([]) + BranchRows(branches[b]);
  }

  /**
    The scan as written: one row appended per zipped sample, and the
    displacement remembered whenever the sample's load is near.
   */
  method LookupLoad(branches: seq<Branch>, load: real) returns (found: Option<real>, rows: seq<Row>)
    ensures rows == AllRows(branches)
    ensures found == LastNear(rows, load)
    ensures found.None? <==> forall i :: 0 <= i < |rows| ==> !Near(rows[i].load, load)
    ensures found.Some? ==>
      exists i :: 0 <= i < |rows| && Near(rows[i].load, load) && found.value == rows[i].displacement
        && forall j :: i < j < |rows| ==> !Near(rows[j].load, load)
  {
    found := None;
    rows := [];
    var b := 0;
    while b < |branches|
      invariant 0 <= b <= |branches|
      invariant rows == AllRows(branches[..b])
      invariant found == LastNear(rows, load)
    {
      var branch := branches[b];
      var n := Min(|branch.par|, |branch.u|);
      var k := 0;
      ghost var before := rows;
      while k < n
        invariant 0 <= k <= n
        invariant rows == before + BranchRows(branch)[..k]
        invariant found == LastNear(rows, load)
      {
        var par := branch.par[k];
        var u := branch.u[k];
        assert BranchRows(branch)[..k + 1] == BranchRows(branch)[..k] + [Row(par, u)];
        rows := rows + [Row(par, u)];
        if Abs(par - load) < Tolerance {
          found := Some(u);
        }
        assert rows[..|rows| - 1] == before + BranchRows(branch)[..k];
        k := k + 1;
      }
      assert BranchRows(branch)[..k] == BranchRows(branch);
      assert branches[..b + 1][..b] == branches[..b];
      b := b + 1;
    }
    assert branches[..b] == branches;
    LastNearSpec(rows, load);
  }
}

=== FILE: maybe.dfy ===
/** The optional value used throughout the model for Python's `None`. */
module Maybe {
  datatype Option<+T> = None | Some(value: T)
}

=== FILE: pystr.dfy ===
/**
  The fragment of Python's `str` that the report writer relies on:
  `isspace`, `strip`, `split(sep)`, the slice `s[:k]` and `rfind(c, 0, end)`,
  with Python's normalisation of negative and out-of-range indices.
 */
module PyStr {

  /** Python's `str.isspace` on one character. */
  predicate IsSpace(c: char) {
    || c == ' '
    || ('\t' <= c <= '\r')
    || ('\U{001C}' <= c <= '\U{001F}')
    || c == '\U{0085}' || c == '\U{00A0}' || c == '\U{1680}'
    || ('\U{2000}' <= c <= '\U{200A}')
    || c == '\U{2028}' || c == '\U{2029}' || c == '\U{202F}'
    || c == '\U{205F}' || c == '\U{3000}'
  }

  predicate AllSpace(s: string) {
    forall i :: 0 <= i < |s| ==> IsSpace(s[i])
  }

  /** A string as `strip()` leaves it: empty, or starting and ending with a non-space. */
  predicate IsStripped(s: string) {
    s == [] || (!IsSpace(s[0]) && !IsSpace(s[|s| - 1]))
  }

  /** The non-whitespace characters of `s`, in order. */
  function NonSpace(s: string): (r: string)
    ensures |r| <= |s|
  {
    if s == [] then [] else (if IsSpace(s[0]) then [] else [s[0]]) + NonSpace(s[1..])
  }

  lemma {:induction false} NonSpaceAppend(a: string, b: string)
    ensures NonSpace(a + b) == NonSpace(a) + NonSpace(b)
    decreases |a|
  {
    if a == [] {
      assert a + b == b;
    } else {
      var ab := a + b;
      var head := if IsSpace(a[0]) then [] else [a[0]];
      assert NonSpace(ab) == head + NonSpace(a[1..] + b) by {
        assert ab[0] == a[0] && ab[1..] == a[1..] + b;
      }
      NonSpaceAppend(a[1..], b);
    }
  }

  lemma {:induction false} NonSpaceOfSpaces(s: string)
    requires AllSpace(s)
    ensures NonSpace(s) == []
    decreases |s|
  {
    if s != [] {
      NonSpaceOfSpaces(s[1..]);
    }
  }

  /** The first index at or after `k` that does not hold whitespace, or `|s|`. */
  function SkipSpaces(s: string, k: nat): (i: nat)
    requires k <= |s|
    ensures k <= i <= |s|
    ensures forall m :: k <= m < i ==> IsSpace(s[m])
    ensures i < |s| ==> !IsSpace(s[i])
    decreases |s| - k
  {
    if k < |s| && IsSpace(s[k]) then SkipSpaces(s, k + 1) else k
  }

  /** `e` moved down past the whitespace that ends `s[lo..e]`. */
  function DropSpaces(s: string, lo: nat, e: nat): (j: nat)
    requires lo <= e <= |s|
    ensures lo <= j <= e
    ensures forall m :: j <= m < e ==> IsSpace(s[m])
    ensures j > lo ==> !IsSpace(s[j - 1])
    decreases e
  {
    if e > lo && IsSpace(s[e - 1]) then DropSpaces(s, lo, e - 1) else e
  }

  /** Where `s.strip()` starts in `s`. */
  function StripStart(s: string): (i: nat)
    ensures i <= |s|
  {
    SkipSpaces(s, 0)
  }

  /** Where `s.strip()` ends in `s`. */
  function StripEnd(s: string): (j: nat)
    ensures StripStart(s) <= j <= |s|
  {
    DropSpaces(s, StripStart(s), |s|)
  }

  /**
    `s.strip()`: a slice of `s` framed by whitespace on both sides, starting
    and ending with a non-space, and empty exactly when `s` is all whitespace.
   */
  function Strip(s: string): (r: string)
    ensures IsStripped(r)
    ensures r == [] <==> AllSpace(s)
    ensures r == s[StripStart(s)..StripEnd(s)]
    ensures forall m :: 0 <= m < StripStart(s) ==> IsSpace(s[m])
    ensures forall m :: StripEnd(s) <= m < |s| ==> IsSpace(s[m])
  {
    var i := StripStart(s);
    var j := StripEnd(s);
    s[i..j]
  }

  /** Stripping keeps every non-whitespace character, in order. */
  lemma StripKeepsText(s: string)
    ensures NonSpace(Strip(s)) == NonSpace(s)
  {
    var r := Strip(s);
    var i := StripStart(s);
    var j := StripEnd(s);
    var front := s[..i];
    var back := s[j..];
    assert s == front + r + back;
    NonSpaceAppend(front + r, back);
    NonSpaceAppend(front, r);
    assert AllSpace(front) by {
      forall m | 0 <= m < |front| ensures IsSpace(front[m]) {
        assert front[m] == s[m];
      }
    }
    assert AllSpace(back) by {
      forall m | 0 <= m < |back| ensures IsSpace(back[m]) {
        assert back[m] == s[j + m];
      }
    }
    NonSpaceOfSpaces(front);
    NonSpaceOfSpaces(back);
    assert [] + NonSpace(r) + [] == NonSpace(r);
  }

  /** `sep.join(parts)`. */
  function Join(parts: seq<string>, sep: char): string
    requires |parts| >= 1
    decreases |parts|
  {
    if |parts| == 1 then parts[0] else parts[0] + [sep] + Join(parts[1..], sep)
  }

  /**
    `s.split(sep)`: at least one piece, no piece holds `sep`, and joining the
    pieces with `sep` gives back `s`.
   */
  function SplitOn(s: string, sep: char): (parts: seq<string>)
    ensures |parts| >= 1
    ensures forall i :: 0 <= i < |parts| ==> sep !in parts[i]
    ensures Join(parts, sep) == s
    decreases |s|
  {
    if s == [] then [[]]
    else
      var rest := SplitOn(s[1..], sep);
      if s[0] == sep then
        assert Join([[]] + rest, sep) == [] + [sep] + Join(rest, sep);
        [[]] + rest
      else
        SplitConsLemma(s[0], rest, sep);
        [[s[0]] + rest[0]] + rest[1..]
  }

  lemma SplitConsLemma(c: char, rest: seq<string>, sep: char)
    requires |rest| >= 1
    ensures Join([[c] + rest[0]] + rest[1..], sep) == [c] + Join(rest, sep)
  {
    var parts := [[c] + rest[0]] + rest[1..];
    assert parts[1..] == rest[1..];
  }

  /** Splitting is the inverse of joining pieces that do not contain the separator. */
  lemma {:induction false} SplitJoin(parts: seq<string>, sep: char)
    requires |parts| >= 1
    requires forall i :: 0 <= i < |parts| ==> sep !in parts[i]
    ensures SplitOn(Join(parts, sep), sep) == parts
    decreases |parts|, |parts[0]|
  {
    var s := Join(parts, sep);
    if parts[0] == [] {
      if |parts| == 1 {
        assert s == [];
      } else {
        assert s == [sep] + Join(parts[1..], sep);
        assert s[1..] == Join(parts[1..], sep);
        SplitJoin(parts[1..], sep);
        assert [[]] + parts[1..] == parts;
      }
    } else {
      var tail := [parts[0][1..]] + parts[1..];
      assert tail[1..] == parts[1..];
      assert sep !in parts[0][1..];
      assert forall i :: 0 <= i < |tail| ==> sep !in tail[i];
      if |parts| == 1 {
        assert s[1..] == Join(tail, sep);
      } else {
        assert s == parts[0] + [sep] + Join(parts[1..], sep);
        assert s[1..] == parts[0][1..] + [sep] + Join(parts[1..], sep);
        assert s[1..] == Join(tail, sep);
      }
      SplitJoin(tail, sep);
      assert s[0] == parts[0][0];
      assert [s[0]] + tail[0] == parts[0];
      assert [[s[0]] + tail[0]] + tail[1..] == parts;
    }
  }

  /**
    Python's normalisation of a slice bound or of `rfind`'s `end` against a
    string of length `n`: negative values count from the end, and the result
    is clamped to `0..n`.
   */
  function ClampIndex(n: nat, k: int): (i: nat)
    ensures i <= n
    ensures 0 <= k <= n ==> i == k
    ensures k > n ==> i == n
    ensures k < 0 && n + k >= 0 ==> i == n + k
    ensures n + k < 0 ==> i == 0
  {
    if k >= 0 then (if k <= n then k else n) else (if n + k >= 0 then n + k else 0)
  }

  /** Python's `s[:k]`. */
  function PyPrefix(s: string, k: int): string {
    s[..ClampIndex(|s|, k)]
  }

  /** The highest index below `e` holding `c`, or -1. */
  function RFindBelow(s: string, c: char, e: nat): (r: int)
    requires e <= |s|
    ensures -1 <= r < e
    ensures r >= 0 ==> s[r] == c
    ensures forall i :: r < i < e ==> s[i] != c
    decreases e
  {
    if e == 0 then -1 else if s[e - 1] == c then e - 1 else RFindBelow(s, c, e - 1)
  }

  /** Python's `s.rfind(c, 0, end)`. */
  function RFind(s: string, c: char, end: int): int {
    RFindBelow(s, c, ClampIndex(|s|, end))
  }

  /** Concatenation of a sequence of strings, `''.join(lines)`. */
  function Concat(lines: seq<string>): string
    decreases |lines|
  {
    if lines == [] then [] else lines[0] + Concat(lines[1..])
  }

  lemma {:induction false} ConcatAppend(a: seq<string>, b: seq<string>)
    ensures Concat(a + b) == Concat(a) + Concat(b)
    decreases |a|
  {
    if a == [] {
      assert a + b == b;
    } else {
      assert (a + b)[1..] == a[1..] + b;
      ConcatAppend(a[1..], b);
    }
  }

  /** The lines `f` gives for each string, one string after another. */
  function ConcatMap(f: string -> seq<string>, xs: seq<string>): seq<string>
    decreases |xs|
  {
    if xs == [] then [] else f(xs[0]) + ConcatMap(f, xs[1..])
  }

  lemma {:induction false} ConcatMapAppend(f: string -> seq<string>, a: seq<string>, b: seq<string>)
    ensures ConcatMap(f, a + b) == ConcatMap(f, a) + ConcatMap(f, b)
    decreases |a|
  {
    if a == [] {
      assert a + b == b;
    } else {
      assert (a + b)[1..] == a[1..] + b;
      ConcatMapAppend(f, a[1..], b);
    }
  }
}

=== FILE: report.dfy ===
/**
  The whole report `save_pdf` lays out (BifurcationApp/BifurcationUI.py):
  title, description, the optional sketch, the energy formula, the
  parameter, its maximum, one line per constant, and the plot with its
  caption, all on one running cursor.

  Numbers reach the report already formatted: `P_max` and every constant's
  value are given as the strings Python's f-strings would produce.
 */
module Report {
  import opened Maybe
  import opened PyStr
  import opened Wrap
  import opened Layout

  /**
    The arguments of `save_pdf` that decide the layout. `constants` is the
    same dict that `Constants.CheckConstants` inspects, given here as its
    `items()` in insertion order with each key and value already formatted.
   */
  datatype ReportInput = ReportInput(
    description: string,
    hasSketch: bool,
    energyFormula: string,
    parameter: string,
    pMax: string,
    constants: seq<(string, string)>)

  /** One call in the body of the report: `add_text(text, size)` or the sketch. */
  datatype Step = Say(size: nat, text: string) | SketchImage

  /** `add_text(f"{key} = {value}", 12)` for every constant, in order. */
  function ConstantSteps(constants: seq<(string, string)>): (steps: seq<Step>)
    ensures |steps| == |constants|
    ensures forall i :: 0 <= i < |steps| ==> steps[i] == Say(12, constants[i].0 + " = " + constants[i].1)
    decreases |constants|
  {
    if constants == [] then []
    else [Say(12, constants[0].0 + " = " + constants[0].1)] + ConstantSteps(constants[1..])
  }

  /** The calls `save_pdf` makes before placing the plot, in order. */
  function Steps(r: ReportInput): seq<Step> {
    [Say(20, "Stability Analysis:\n"), Say(16, "Description:"), Say(12, "\n" + r.description), Say(16, "\nSketch:")]
    + (if r.hasSketch then [SketchImage] else [])
    + [Say(12, "\nEnergy Formula:\n"), Say(12, "V = " + r.energyFormula),
       Say(12, "Parameter = " + r.parameter), Say(12, "Max Parameter (P_max) = " + r.pMax)]
    + ConstantSteps(r.constants)
  }

  function Perform(cur: Cursor, step: Step, glyph: char -> nat): Placed {
    match step
    case Say(size, text) => AddText(cur, size, text, glyph)
    case SketchImage => PlaceSketch(cur)
  }

  /** The steps one after another, `text_y` carried from each to the next. */
  function RunSteps(cur: Cursor, steps: seq<Step>, glyph: char -> nat): Placed
    decreases |steps|
  {
    if steps == [] then Placed(cur, [])
    else
      var first := Perform(cur, steps[0], glyph);
      var rest := RunSteps(first.cursor, steps[1..], glyph);
      Placed(rest.cursor, first.items + rest.items)
  }

  /** Everything `save_pdf` draws, in drawing order, with the intended wrap. */
  function LayoutReport(r: ReportInput, glyph: char -> nat): seq<Item> {
    var body := RunSteps(Cursor(0, PageTop), Steps(r), glyph);
    body.items + PlacePlot(body.cursor, glyph).items
  }

  // ---------------------------------------------------------------------------
  // The report as written

  function PerformAsWritten(cur: Cursor, step: Step, glyph: char -> nat): Option<Placed> {
    match step
    case Say(size, text) => AddTextAsWritten(cur, size, text, glyph)
    case SketchImage => Some(PlaceSketch(cur))
  }

  function RunStepsAsWritten(cur: Cursor, steps: seq<Step>, glyph: char -> nat): Option<Placed>
    decreases |steps|
  {
    if steps == [] then Some(Placed(cur, []))
    else match PerformAsWritten(cur, steps[0], glyph)
      case None => None
      case Some(first) =>
        match RunStepsAsWritten(first.cursor, steps[1..], glyph)
        case None => None
        case Some(rest) => Some(Placed(rest.cursor, first.items + rest.items))
  }

  /** `save_pdf` as written: `None` when one of its `add_text` calls never returns. */
  function ReportAsWritten(r: ReportInput, glyph: char -> nat): Option<seq<Item>> {
    match RunStepsAsWritten(Cursor(0, PageTop), Steps(r), glyph)
    case None => None
    case Some(body) =>
      match PlacePlotAsWritten(body.cursor, glyph)
      case None => None
      case Some(plot) => Some(body.items + plot.items)
  }

  /** A text step whose wrap never finishes in the source. */
  predicate StepHangs(step: Step, glyph: char -> nat) {
    step.Say? && AnyHangs(SplitOn(step.text, '\n'), Advance(glyph, step.size), WidthLimit)
  }

  predicate AnyStepHangs(steps: seq<Step>, glyph: char -> nat) {
    exists k :: 0 <= k < |steps| && StepHangs(steps[k], glyph)
  }

  lemma PerformAgrees(cur: Cursor, step: Step, glyph: char -> nat)
    ensures PerformAsWritten(cur, step, glyph).None? <==> StepHangs(step, glyph)
    ensures PerformAsWritten(cur, step, glyph).Some? ==>
      PerformAsWritten(cur, step, glyph).value == Perform(cur, step, glyph)
  {
    if step.Say? {
      AddTextAgrees(cur, step.size, step.text, glyph);
    }
  }

  lemma AnyStepHangsCons(steps: seq<Step>, glyph: char -> nat)
    requires steps != []
    ensures AnyStepHangs(steps, glyph) <==> StepHangs(steps[0], glyph) || AnyStepHangs(steps[1..], glyph)
  {
    if AnyStepHangs(steps, glyph) {
      var k :| 0 <= k < |steps| && StepHangs(steps[k], glyph);
      if k > 0 {
        assert steps[1..][k - 1] == steps[k];
      }
    }
    if AnyStepHangs(steps[1..], glyph) {
      var k :| 0 <= k < |steps[1..]| && StepHangs(steps[1..][k], glyph);
      assert steps[k + 1] == steps[1..][k];
    }
  }

  lemma {:induction false} RunStepsAgrees(cur: Cursor, steps: seq<Step>, glyph: char -> nat)
    ensures RunStepsAsWritten(cur, steps, glyph).None? <==> AnyStepHangs(steps, glyph)
    ensures RunStepsAsWritten(cur, steps, glyph).Some? ==>
      RunStepsAsWritten(cur, steps, glyph).value == RunSteps(cur, steps, glyph)
    decreases |steps|
  {
    if steps != [] {
      PerformAgrees(cur, steps[0], glyph);
      var first := Perform(cur, steps[0], glyph);
      RunStepsAgrees(first.cursor, steps[1..], glyph);
      AnyStepHangsCons(steps, glyph);
    }
  }

  /**
    The source's `save_pdf` finishes exactly when no text it wraps hangs, the
    plot's caption included, and then lays out what `LayoutReport` lays out.
   */
  lemma ReportAgrees(r: ReportInput, glyph: char -> nat)
    ensures ReportAsWritten(r, glyph).None? <==>
      AnyStepHangs(Steps(r), glyph) || StepHangs(Say(16, "\nPlot:"), glyph)
    ensures ReportAsWritten(r, glyph).Some? ==> ReportAsWritten(r, glyph).value == LayoutReport(r, glyph)
  {
    var c0 := Cursor(0, PageTop);
    RunStepsAgrees(c0, Steps(r), glyph);
    if RunStepsAsWritten(c0, Steps(r), glyph).Some? {
      PlacePlotAgrees(RunSteps(c0, Steps(r), glyph).cursor, glyph);
    }
  }

  // ---------------------------------------------------------------------------
  // Soundness of the layout

  /** The lines one step draws. */
  function StepOutput(step: Step, glyph: char -> nat): seq<string> {
    match step
    case Say(size, text) => WrapText(text, Advance(glyph, size), WidthLimit)
    case SketchImage => []
  }

  /** The lines the text steps draw, in order. */
  function StepLines(steps: seq<Step>, glyph: char -> nat): seq<string>
    decreases |steps|
  {
    if steps == [] then [] else StepOutput(steps[0], glyph) + StepLines(steps[1..], glyph)
  }

  /** How many sketches the items hold. */
  function Sketches(items: seq<Item>): nat
    decreases |items|
  {
    if items == [] then 0
    else (if items[0].Picture? && items[0].kind == Sketch then 1 else 0) + Sketches(items[1..])
  }

  function StepSketches(step: Step): nat {
    if step.SketchImage? then 1 else 0
  }

  function SketchSteps(steps: seq<Step>): nat
    decreases |steps|
  {
    if steps == [] then 0 else StepSketches(steps[0]) + SketchSteps(steps[1..])
  }

  lemma {:induction false} SketchesAppend(a: seq<Item>, b: seq<Item>)
    ensures Sketches(a + b) == Sketches(a) + Sketches(b)
    decreases |a|
  {
    if a == [] {
      assert a + b == b;
    } else {
      assert (a + b)[1..] == a[1..] + b;
      SketchesAppend(a[1..], b);
    }
  }

  lemma {:induction false} SketchStepsAppend(a: seq<Step>, b: seq<Step>)
    ensures SketchSteps(a + b) == SketchSteps(a) + SketchSteps(b)
    decreases |a|
  {
    if a == [] {
      assert a + b == b;
    } else {
      assert (a + b)[1..] == a[1..] + b;
      SketchStepsAppend(a[1..], b);
    }
  }

  /** Text steps only. */
  lemma {:induction false} NoSketchInSays(steps: seq<Step>)
    requires forall i :: 0 <= i < |steps| ==> steps[i].Say?
    ensures SketchSteps(steps) == 0
    decreases |steps|
  {
    if steps != [] {
      NoSketchInSays(steps[1..]);
    }
  }

  /** Text items only. */
  lemma {:induction false} NoSketchInText(items: seq<Item>)
    requires AllText(items)
    ensures Sketches(items) == 0
    decreases |items|
  {
    if items != [] {
      NoSketchInText(items[1..]);
    }
  }

  /** One step keeps the cursor on the page and draws inside the margins, in reading order. */
  lemma PerformSound(cur: Cursor, step: Step, glyph: char -> nat)
    requires cur.y <= PageTop
    ensures var p := Perform(cur, step, glyph);
      && Spans(cur, p)
      && p.cursor.y <= PageTop
      && AllOnPage(p.items)
      && Texts(p.items) == StepOutput(step, glyph)
      && Sketches(p.items) == StepSketches(step)
  {
    var p := Perform(cur, step, glyph);
    match step
    case Say(size, text) =>
      AddTextSound(cur, size, text, glyph);
      NoSketchInText(p.items);
    case SketchImage =>
      PlaceSketchSound(cur);
      assert p.items[1..] == [];
  }

  lemma {:induction false} RunStepsSound(cur: Cursor, steps: seq<Step>, glyph: char -> nat)
    requires cur.y <= PageTop
    ensures var p := RunSteps(cur, steps, glyph);
      && Spans(cur, p)
      && p.cursor.y <= PageTop
      && AllOnPage(p.items)
      && Texts(p.items) == StepLines(steps, glyph)
      && Sketches(p.items) == SketchSteps(steps)
    decreases |steps|
  {
    if steps == [] {
      SpansEmpty(cur);
    } else {
      var first := Perform(cur, steps[0], glyph);
      var rest := RunSteps(first.cursor, steps[1..], glyph);
      PerformSound(cur, steps[0], glyph);
      RunStepsSound(first.cursor, steps[1..], glyph);
      SpansAppend(cur, first, rest);
      TextsAppend(first.items, rest.items);
      SketchesAppend(first.items, rest.items);
      AllOnPageAppend(first.items, rest.items);
    }
  }

  /** The sketch is drawn exactly when one was uploaded. */
  lemma SketchStepsOfReport(r: ReportInput)
    ensures SketchSteps(Steps(r)) == if r.hasSketch then 1 else 0
  {
    var head: seq<Step> := [Say(20, "Stability Analysis:\n"), Say(16, "Description:"), Say(12, "\n" + r.description), Say(16, "\nSketch:")];
    var sketch: seq<Step> := if r.hasSketch then [SketchImage] else [];
    var tail: seq<Step> := [Say(12, "\nEnergy Formula:\n"), Say(12, "V = " + r.energyFormula),
       Say(12, "Parameter = " + r.parameter), Say(12, "Max Parameter (P_max) = " + r.pMax)];
    assert Steps(r) == head + sketch + tail + ConstantSteps(r.constants);
    SketchStepsAppend(head + sketch + tail, ConstantSteps(r.constants));
    SketchStepsAppend(head + sketch, tail);
    SketchStepsAppend(head, sketch);
    NoSketchInSays(ConstantSteps(r.constants));
    NoSketchInSays(head);
    NoSketchInSays(tail);
  }

  /**
    The report: items in reading order; every text line and the sketch lie
    inside the margins; the plot, drawn last, lies above 22 points only; the
    lines are the wrapped texts in call order followed by the caption; and
    there is a sketch exactly when one was uploaded.
   */
  lemma LayoutReportSound(r: ReportInput, glyph: char -> nat)
    ensures var items := LayoutReport(r, glyph);
      && Ordered(items)
      && |items| >= 3
      && (forall i :: 0 <= i < |items| - 1 ==> OnPage(items[i]))
      && items[|items| - 1].Picture? && items[|items| - 1].kind == Plot
      && BottomMargin - 2 * LineHeight < Bottom(items[|items| - 1]) && Top(items[|items| - 1]) <= PageTop
      && Texts(items) == StepLines(Steps(r), glyph) + ["", "Plot:"]
      && Sketches(items) == if r.hasSketch then 1 else 0
  {
    var c0 := Cursor(0, PageTop);
    var body := RunSteps(c0, Steps(r), glyph);
    var plot := PlacePlot(body.cursor, glyph);
    RunStepsSound(c0, Steps(r), glyph);
    PlacePlotSound(body.cursor, glyph);
    SketchStepsOfReport(r);
    PlotCounts(plot.items);
    TextsAppend(body.items, plot.items);
    SketchesAppend(body.items, plot.items);
    ReportOrdered(c0, body, plot.items);
    ReportOnPage(body.items, plot.items);
  }

  /** The caption's two lines and the plot: two lines of text, no sketch. */
  lemma PlotCounts(plot: seq<Item>)
    requires |plot| == 3 && Texts(plot[..2]) == ["", "Plot:"]
    requires plot[0].Text? && plot[1].Text? && plot[2].Picture? && plot[2].kind == Plot
    ensures Texts(plot) == ["", "Plot:"] && Sketches(plot) == 0
  {
    assert plot == plot[..2] + [plot[2]];
    TextsAppend(plot[..2], [plot[2]]);
    NoSketchInText(plot[..2]);
    SketchesAppend(plot[..2], [plot[2]]);
  }

  lemma ReportOnPage(body: seq<Item>, plot: seq<Item>)
    requires AllOnPage(body)
    requires |plot| == 3 && OnPage(plot[0]) && OnPage(plot[1])
    ensures forall i :: 0 <= i < |body + plot| - 1 ==> OnPage((body + plot)[i])
  {
    var items := body + plot;
    forall i | 0 <= i < |items| - 1 ensures OnPage(items[i]) {
      if i < |body| {
        assert items[i] == body[i];
      } else {
        assert items[i] == plot[i - |body|];
      }
    }
  }

  lemma ReportOrdered(c0: Cursor, body: Placed, plot: seq<Item>)
    requires Spans(c0, body) && Ordered(plot)
    requires forall i :: 0 <= i < |plot| ==> AtOrAfter(body.cursor, plot[i])
    ensures Ordered(body.items + plot)
  {
    var items := body.items + plot;
    forall i, j | 0 <= i < j < |items| ensures Precedes(items[i], items[j]) {
      if j < |body.items| {
        assert items[i] == body.items[i] && items[j] == body.items[j];
      } else if i >= |body.items| {
        assert items[i] == plot[i - |body.items|] && items[j] == plot[j - |body.items|];
      } else {
        assert items[i] == body.items[i] && items[j] == plot[j - |body.items|];
        assert Above(items[i], body.cursor) && AtOrAfter(body.cursor, items[j]);
        assert Bottom(items[j]) <= Top(items[j]);
      }
    }
  }

  /** No text is lost or reordered: the lines hold the non-space characters of the texts, in call order. */
  lemma {:induction false} StepLinesKeepText(steps: seq<Step>, glyph: char -> nat)
    ensures NonSpace(Concat(StepLines(steps, glyph))) == NonSpace(Concat(StepTexts(steps)))
    decreases |steps|
  {
    if steps != [] {
      StepLinesKeepText(steps[1..], glyph);
      var head := match steps[0]
        case Say(size, text) => WrapText(text, Advance(glyph, size), WidthLimit)
        case SketchImage => [];
      var t := if steps[0].Say? then steps[0].text else [];
      ConcatAppend(head, StepLines(steps[1..], glyph));
      NonSpaceAppend(Concat(head), Concat(StepLines(steps[1..], glyph)));
      NonSpaceAppend(t, Concat(StepTexts(steps[1..])));
      if steps[0].Say? {
        WrapTextKeepsText(steps[0].text, Advance(glyph, steps[0].size), WidthLimit);
      }
      assert [t] + StepTexts(steps[1..]) == StepTexts(steps);
      assert Concat([t] + StepTexts(steps[1..])) == t + Concat(StepTexts(steps[1..]));
    }
  }

  /** The texts of the text steps, one entry per step. */
  function StepTexts(steps: seq<Step>): seq<string>
    decreases |steps|
  {
    if steps == [] then [] else [if steps[0].Say? then steps[0].text else []] + StepTexts(steps[1..])
  }
}

=== FILE: wrap.dfy ===
/**
  Greedy word wrapping as done by `add_text`, the helper nested in `save_pdf`
  (BifurcationApp/BifurcationUI.py). The text is split on newlines and every
  piece is stripped. A blank piece becomes one empty line. A piece wider than
  the page is cut at a space, and the remainder is stripped and wrapped again.

  Widths are additive. `adv` gives the advance of each character, in the same
  unit as `limit`, and the width of a string is the sum of its characters'
  advances. reportlab's `stringWidth` for a standard font sums glyph widths in
  the same way.

  The source's search for a cut point can loop forever. `SearchSplit` and
  `WrapLineAsWritten` model the code as written, and `IsBreak` states exactly
  when that loop stops. `WrapLine` is the wrap the fallback branch evidently
  intends: when no space gives a prefix that fits, the whole remainder is
  emitted on one line. The two agree whenever the source terminates.
 */
module Wrap {
  import opened Maybe
  import opened PyStr

  /** The width of a string: the sum of its characters' advances. */
  function Width(s: string, adv: char -> nat): nat
    decreases |s|
  {
    if s == [] then 0 else Width(s[..|s| - 1], adv) + adv(s[|s| - 1])
  }

  lemma {:induction false} WidthAppend(a: string, b: string, adv: char -> nat)
    ensures Width(a + b, adv) == Width(a, adv) + Width(b, adv)
    decreases |b|
  {
    if b == [] {
      assert a + b == a;
    } else {
      assert (a + b)[..|a + b| - 1] == a + b[..|b| - 1];
      WidthAppend(a, b[..|b| - 1], adv);
    }
  }

  lemma WidthPrefixMonotone(s: string, i: nat, j: nat, adv: char -> nat)
    requires i <= j <= |s|
    ensures Width(s[..i], adv) <= Width(s[..j], adv)
  {
    assert s[..j] == s[..i] + s[i..j];
    WidthAppend(s[..i], s[i..j], adv);
  }

  // ---------------------------------------------------------------------------
  // Cut points

  /** Every space after index `p` ends a prefix wider than `limit`. */
  ghost predicate UnfitAbove(line: string, adv: char -> nat, limit: nat, p: int) {
    forall q :: 0 <= q < |line| && p < q && line[q] == ' ' ==> Width(line[..q], adv) > limit
  }

  /** No space of `line` ends a prefix that fits within `limit`. */
  ghost predicate Unbreakable(line: string, adv: char -> nat, limit: nat) {
    UnfitAbove(line, adv, limit, -1)
  }

  /**
    The values at which the source's inner loop stops when started on an
    overlong stripped `line`: the last space whose prefix fits, or -1 when no
    space fits but `line[:-1]` does.
   */
  ghost predicate IsBreak(line: string, adv: char -> nat, limit: nat, sp: int) {
    || (0 <= sp < |line| && line[sp] == ' ' && Width(line[..sp], adv) <= limit
        && UnfitAbove(line, adv, limit, sp))
    || (sp == -1 && |line| >= 1 && Unbreakable(line, adv, limit)
        && Width(line[..|line| - 1], adv) <= limit)
  }

  /** The last space below `k` whose prefix fits within `limit`, or -1. */
  function LastFitSpace(line: string, adv: char -> nat, limit: nat, k: nat): (p: int)
    requires k <= |line|
    ensures -1 <= p < k
    ensures p >= 0 ==> line[p] == ' ' && Width(line[..p], adv) <= limit
    ensures forall q :: p < q < k && line[q] == ' ' ==> Width(line[..q], adv) > limit
    decreases k
  {
    if k == 0 then -1
    else if line[k - 1] == ' ' && Width(line[..k - 1], adv) <= limit then k - 1
    else LastFitSpace(line, adv, limit, k - 1)
  }

  /**
    Where an overlong stripped line is cut: at the last space whose prefix
    fits, or at the end of the line when there is no such space.
   */
  function BreakIndex(line: string, adv: char -> nat, limit: nat): (cut: nat)
    requires line != [] && IsStripped(line)
    ensures 1 <= cut <= |line|
    ensures cut < |line| ==> line[cut] == ' ' && Width(line[..cut], adv) <= limit
    ensures UnfitAbove(line, adv, limit, cut)
    ensures cut == |line| <==> Unbreakable(line, adv, limit)
  {
    var p := LastFitSpace(line, adv, limit, |line|);
    if p == -1 then |line| else p
  }

  /** A stop of the source's loop cuts where `BreakIndex` cuts. */
  lemma BreakIsBreakIndex(line: string, adv: char -> nat, limit: nat, sp: int)
    requires line != [] && IsStripped(line)
    requires IsBreak(line, adv, limit, sp)
    ensures BreakIndex(line, adv, limit) == if sp == -1 then |line| else sp
  {
  }

  // ---------------------------------------------------------------------------
  // The source's inner loop, as written

  /**
    The loop `while width(line[:sp]) > limit: sp = line.rfind(' ', 0, sp)`,
    run for at most `fuel` iterations. `None` means it was still running when
    the fuel ran out.
   */
  function SearchSplit(line: string, adv: char -> nat, limit: nat, sp: int, fuel: nat): (r: Option<int>)
    ensures r.Some? ==> Width(PyPrefix(line, r.value), adv) <= limit
    ensures r.Some? ==> r.value == sp || r.value == -1 || (0 <= r.value < |line| && line[r.value] == ' ')
    decreases fuel
  {
    if Width(PyPrefix(line, sp), adv) <= limit then Some(sp)
    else if fuel == 0 then None
    else SearchSplit(line, adv, limit, RFind(line, ' ', sp), fuel - 1)
  }

  /** The states the loop passes through when started at `|line|`. */
  ghost predicate SearchState(line: string, sp: int) {
    sp == |line| || sp == -1 || (0 <= sp < |line| && line[sp] == ' ')
  }

  /** Whenever the loop stops, it stops at a value satisfying `IsBreak`. */
  lemma {:induction false} SearchStopsAtBreak(line: string, adv: char -> nat, limit: nat, s: int, fuel: nat)
    requires line != [] && IsStripped(line) && Width(line, adv) > limit
    requires SearchState(line, s) && UnfitAbove(line, adv, limit, s)
    requires SearchSplit(line, adv, limit, s, fuel).Some?
    ensures IsBreak(line, adv, limit, SearchSplit(line, adv, limit, s, fuel).value)
    decreases fuel
  {
    var n := |line|;
    assert line[..n] == line;
    assert PyPrefix(line, n) == line;
    assert PyPrefix(line, -1) == line[..n - 1];
    if Width(PyPrefix(line, s), adv) <= limit {
      if s == n {
        assert false;
      }
    } else if fuel == 0 || s < 0 {
      // From -1 the loop can only stop at a prefix that fits; none does.
      assert false;
    } else {
      var s' := RFind(line, ' ', s);
      assert s' == RFindBelow(line, ' ', s);
      SearchStopsAtBreak(line, adv, limit, s', fuel - 1);
    }
  }

  /** Started above a break, the loop reaches it within `s + 1` iterations. */
  lemma {:induction false} SearchFindsBreak(line: string, adv: char -> nat, limit: nat, r: int, s: int, fuel: nat)
    requires line != [] && IsStripped(line) && Width(line, adv) > limit
    requires IsBreak(line, adv, limit, r)
    requires SearchState(line, s) && r <= s && fuel >= s + 1
    ensures SearchSplit(line, adv, limit, s, fuel) == Some(r)
    decreases s + 1
  {
    var n := |line|;
    assert line[..n] == line;
    assert PyPrefix(line, n) == line;
    assert PyPrefix(line, -1) == line[..n - 1];
    if s != r {
      var s' := RFindBelow(line, ' ', s);
      assert RFind(line, ' ', s) == s';
      SearchFindsBreak(line, adv, limit, r, s', fuel - 1);
    }
  }

  /**
    The source's inner loop, started on an overlong stripped line, stops for
    some number of iterations exactly when the line has a space whose prefix
    fits or `line[:-1]` fits. Otherwise it runs forever.
   */
  lemma SearchStopsIff(line: string, adv: char -> nat, limit: nat)
    requires line != [] && IsStripped(line) && Width(line, adv) > limit
    ensures (exists fuel: nat :: SearchSplit(line, adv, limit, |line|, fuel).Some?)
        <==> (!Unbreakable(line, adv, limit) || Width(line[..|line| - 1], adv) <= limit)
    ensures SearchSplit(line, adv, limit, |line|, |line| + 1).Some?
        <==> (!Unbreakable(line, adv, limit) || Width(line[..|line| - 1], adv) <= limit)
  {
    var n := |line|;
    if !Unbreakable(line, adv, limit) || Width(line[..n - 1], adv) <= limit {
      var p := LastFitSpace(line, adv, limit, n);
      SearchFindsBreak(line, adv, limit, p, n, n + 1);
    }
    forall fuel: nat | SearchSplit(line, adv, limit, n, fuel).Some?
      ensures !Unbreakable(line, adv, limit) || Width(line[..n - 1], adv) <= limit
    {
      SearchStopsAtBreak(line, adv, limit, n, fuel);
    }
  }

  /** `|line| + 1` iterations are enough: a loop that stops later stops at the same value. */
  lemma SearchFuelSuffices(line: string, adv: char -> nat, limit: nat, fuel: nat)
    requires line != [] && IsStripped(line) && Width(line, adv) > limit
    requires SearchSplit(line, adv, limit, |line|, fuel).Some?
    ensures SearchSplit(line, adv, limit, |line|, |line| + 1) == SearchSplit(line, adv, limit, |line|, fuel)
  {
    var r := SearchSplit(line, adv, limit, |line|, fuel).value;
    SearchStopsAtBreak(line, adv, limit, |line|, fuel);
    SearchFindsBreak(line, adv, limit, r, |line|, |line| + 1);
  }

  // ---------------------------------------------------------------------------
  // Wrapping one stripped piece

  /**
    Where the source cuts an overlong stripped line: the inner loop's result,
    with -1 replaced by `len(line)`. `None` when the inner loop never stops.
   */
  function CutAsWritten(line: string, adv: char -> nat, limit: nat): (cut: Option<nat>)
    requires line != [] && IsStripped(line)
    ensures cut.Some? ==> 1 <= cut.value <= |line|
  {
    match SearchSplit(line, adv, limit, |line|, |line| + 1)
    case None => None
    case Some(sp) => Some(if sp == -1 then |line| else sp)
  }

  /** The source cuts where `BreakIndex` cuts, unless its inner loop never stops. */
  lemma CutAsWrittenSpec(line: string, adv: char -> nat, limit: nat)
    requires line != [] && IsStripped(line) && Width(line, adv) > limit
    ensures CutAsWritten(line, adv, limit) ==
      if Unbreakable(line, adv, limit) && Width(line[..|line| - 1], adv) > limit then None
      else Some(BreakIndex(line, adv, limit))
  {
    SearchStopsIff(line, adv, limit);
    var r := SearchSplit(line, adv, limit, |line|, |line| + 1);
    if r.Some? {
      SearchStopsAtBreak(line, adv, limit, |line|, |line| + 1);
      BreakIsBreakIndex(line, adv, limit, r.value);
    }
  }

  /**
    The source's `while line:` loop over one stripped piece. `None` when its
    inner loop never stops on some remainder.
   */
  function WrapLineAsWritten(line: string, adv: char -> nat, limit: nat): (r: Option<seq<string>>)
    requires IsStripped(line)
    decreases |line|
  {
    if line == [] then Some([])
    else if Width(line, adv) <= limit then Some([line])
    else match CutAsWritten(line, adv, limit)
      case None => None
      case Some(cut) =>
        match WrapLineAsWritten(Strip(line[cut..]), adv, limit)
        case None => None
        case Some(rest) => Some([line[..cut]] + rest)
  }

  /**
    Every line fits within `limit` except possibly the last, which then has
    no space to cut at.
   */
  ghost predicate FitExceptLast(lines: seq<string>, adv: char -> nat, limit: nat) {
    && (forall i :: 0 <= i < |lines| - 1 ==> Width(lines[i], adv) <= limit)
    && (lines != [] ==>
          Width(lines[|lines| - 1], adv) <= limit || Unbreakable(lines[|lines| - 1], adv, limit))
  }

  lemma FitExceptLastCons(head: string, tail: seq<string>, adv: char -> nat, limit: nat)
    requires FitExceptLast(tail, adv, limit)
    requires Width(head, adv) <= limit || (tail == [] && Unbreakable(head, adv, limit))
    ensures FitExceptLast([head] + tail, adv, limit)
  {
    var lines := [head] + tail;
    forall i | 0 <= i < |lines| - 1
      ensures Width(lines[i], adv) <= limit
    {
      if i > 0 { assert lines[i] == tail[i - 1]; }
    }
    if tail != [] {
      assert lines[|lines| - 1] == tail[|tail| - 1];
    }
  }

  /**
    The intended wrap of one stripped piece: cut at the last space whose
    prefix fits, or emit the whole remainder when there is none. Every line
    is non-empty and starts with a non-space.
   */
  function WrapLine(line: string, adv: char -> nat, limit: nat): (lines: seq<string>)
    requires IsStripped(line)
    ensures line == [] <==> lines == []
    ensures forall i :: 0 <= i < |lines| ==> lines[i] != [] && !IsSpace(lines[i][0])
    decreases |line|
  {
    if line == [] then []
    else if Width(line, adv) <= limit then [line]
    else
      var cut := BreakIndex(line, adv, limit);
      var rest := WrapLine(Strip(line[cut..]), adv, limit);
      [line[..cut]] + rest
  }

  /**
    Every line of the intended wrap fits, except possibly the last, and only
    when that line has no space to cut at.
   */
  lemma {:induction false} WrapLineFits(line: string, adv: char -> nat, limit: nat)
    requires IsStripped(line)
    ensures FitExceptLast(WrapLine(line, adv, limit), adv, limit)
    decreases |line|
  {
    if line != [] && Width(line, adv) > limit {
      var cut := BreakIndex(line, adv, limit);
      var rest := Strip(line[cut..]);
      WrapLineFits(rest, adv, limit);
      assert line[..|line|] == line;
      if cut == |line| {
        assert line[cut..] == [];
        assert rest == [];
      }
      FitExceptLastCons(line[..cut], WrapLine(rest, adv, limit), adv, limit);
    }
  }

  /** Wrapping keeps every non-whitespace character of the piece, in order, once. */
  lemma {:induction false} WrapLineKeepsText(line: string, adv: char -> nat, limit: nat)
    requires IsStripped(line)
    ensures NonSpace(Concat(WrapLine(line, adv, limit))) == NonSpace(line)
    decreases |line|
  {
    if line == [] {
    } else if Width(line, adv) <= limit {
      assert WrapLine(line, adv, limit) == [line];
      ConcatAppend([line], []);
      assert line + [] == line;
    } else {
      var cut := BreakIndex(line, adv, limit);
      var rest := Strip(line[cut..]);
      WrapLineKeepsText(rest, adv, limit);
      KeepsTextStep(line, cut, WrapLine(rest, adv, limit));
    }
  }

  /** One cut keeps the text: the emitted prefix followed by the wrapped, stripped remainder. */
  lemma KeepsTextStep(line: string, cut: nat, tail: seq<string>)
    requires cut <= |line|
    requires NonSpace(Concat(tail)) == NonSpace(Strip(line[cut..]))
    ensures NonSpace(Concat([line[..cut]] + tail)) == NonSpace(line)
  {
    ConcatAppend([line[..cut]], tail);
    ConcatAppend([line[..cut]], []);
    assert Concat([line[..cut]]) == line[..cut] + [];
    StripKeepsText(line[cut..]);
    NonSpaceAppend(line[..cut], Concat(tail));
    NonSpaceAppend(line[..cut], line[cut..]);
    assert line == line[..cut] + line[cut..];
  }

  /** The last line the wrap emits for a non-empty piece. */
  function LastLine(line: string, adv: char -> nat, limit: nat): (last: string)
    requires line != [] && IsStripped(line)
    ensures last != []
  {
    var lines := WrapLine(line, adv, limit);
    lines[|lines| - 1]
  }

  /** A line that is too wide even without its last character. */
  predicate Hopeless(l: string, adv: char -> nat, limit: nat)
    requires l != []
  {
    Width(l, adv) > limit && Width(l[..|l| - 1], adv) > limit
  }

  /** When the source's wrap of a piece stops, it produces exactly the intended wrap. */
  lemma {:induction false} AsWrittenAgrees(line: string, adv: char -> nat, limit: nat)
    requires IsStripped(line)
    requires WrapLineAsWritten(line, adv, limit).Some?
    ensures WrapLineAsWritten(line, adv, limit).value == WrapLine(line, adv, limit)
    decreases |line|
  {
    if line != [] && Width(line, adv) > limit {
      CutAsWrittenSpec(line, adv, limit);
      var cut := BreakIndex(line, adv, limit);
      AsWrittenAgrees(Strip(line[cut..]), adv, limit);
    }
  }

  /**
    The source's wrap of a non-empty piece runs forever exactly when the last
    line of the intended wrap is too wide even without its final character.
   */
  lemma {:induction false} AsWrittenHangsIff(line: string, adv: char -> nat, limit: nat)
    requires line != [] && IsStripped(line)
    ensures WrapLineAsWritten(line, adv, limit).None? <==> Hopeless(LastLine(line, adv, limit), adv, limit)
    decreases |line|
  {
    var n := |line|;
    if Width(line, adv) > limit {
      CutAsWrittenSpec(line, adv, limit);
      var cut := BreakIndex(line, adv, limit);
      var rest := Strip(line[cut..]);
      var lines := WrapLine(line, adv, limit);
      assert lines == [line[..cut]] + WrapLine(rest, adv, limit);
      if cut == n {
        assert line[..n] == line;
        assert line[cut..] == [];
        assert lines == [line];
      } else {
        assert line[cut..][n - 1 - cut] == line[n - 1];
        assert rest != [];
        AsWrittenHangsIff(rest, adv, limit);
        assert LastLine(line, adv, limit) == LastLine(rest, adv, limit);
      }
    }
  }

  // ---------------------------------------------------------------------------
  // Whole texts

  /** One newline-separated piece, stripped and wrapped; a blank piece still takes a line. */
  function WrapPiece(piece: string, adv: char -> nat, limit: nat): (lines: seq<string>)
    ensures |lines| >= 1
  {
    var line := Strip(piece);
    if line == [] then [[]] else WrapLine(line, adv, limit)
  }

  /** A piece gives the single empty line exactly when it is blank. */
  lemma WrapPieceBlank(piece: string, adv: char -> nat, limit: nat)
    ensures WrapPiece(piece, adv, limit) == [[]] <==> AllSpace(piece)
  {
    var line := Strip(piece);
    if line != [] {
      assert WrapLine(line, adv, limit)[0] != [];
    }
  }

  /** The lines of all pieces, piece after piece. */
  function WrapPieces(pieces: seq<string>, adv: char -> nat, limit: nat): seq<string> {
    ConcatMap(piece => WrapPiece(piece, adv, limit), pieces)
  }

  /** The lines `add_text` draws for `text`, with the intended cut rule. */
  function WrapText(text: string, adv: char -> nat, limit: nat): seq<string> {
    WrapPieces(SplitOn(text, '\n'), adv, limit)
  }

  /** Pieces are wrapped independently, and their lines keep the pieces' order. */
  lemma WrapPiecesAppend(a: seq<string>, b: seq<string>, adv: char -> nat, limit: nat)
    ensures WrapPieces(a + b, adv, limit) == WrapPieces(a, adv, limit) + WrapPieces(b, adv, limit)
  {
    ConcatMapAppend(piece => WrapPiece(piece, adv, limit), a, b);
  }

  /** Every piece gives at least one line, so a text gives at least one line per piece. */
  lemma {:induction false} WrapPiecesCount(pieces: seq<string>, adv: char -> nat, limit: nat)
    ensures |WrapPieces(pieces, adv, limit)| >= |pieces|
    decreases |pieces|
  {
    if pieces != [] {
      WrapPiecesCount(pieces[1..], adv, limit);
    }
  }

  lemma WrapPieceKeepsText(piece: string, adv: char -> nat, limit: nat)
    ensures NonSpace(Concat(WrapPiece(piece, adv, limit))) == NonSpace(piece)
  {
    var line := Strip(piece);
    StripKeepsText(piece);
    if line == [] {
      assert Concat([[]]) == [];
    } else {
      WrapLineKeepsText(line, adv, limit);
    }
  }

  lemma {:induction false} WrapPiecesKeepText(pieces: seq<string>, adv: char -> nat, limit: nat)
    requires |pieces| >= 1
    ensures NonSpace(Concat(WrapPieces(pieces, adv, limit))) == NonSpace(Join(pieces, '\n'))
    decreases |pieces|
  {
    var p := pieces[0];
    var head := WrapPiece(p, adv, limit);
    var tail := WrapPieces(pieces[1..], adv, limit);
    assert WrapPieces(pieces, adv, limit) == head + tail;
    ConcatAppend(head, tail);
    NonSpaceAppend(Concat(head), Concat(tail));
    WrapPieceKeepsText(p, adv, limit);
    if |pieces| == 1 {
      assert pieces[1..] == [];
      assert Concat(tail) == [];
      assert Join(pieces, '\n') == p;
      assert Concat(head) + Concat(tail) == Concat(head);
    } else {
      WrapPiecesKeepText(pieces[1..], adv, limit);
      var j := Join(pieces[1..], '\n');
      assert Join(pieces, '\n') == p + ['\n'] + j;
      NonSpaceAppend(p + ['\n'], j);
      NonSpaceAppend(p, ['\n']);
      assert NonSpace(['\n']) == [];
      assert NonSpace(p) + [] == NonSpace(p);
    }
  }

  /**
    No text is lost or reordered: the non-whitespace characters of the drawn
    lines are those of the text, in order.
   */
  lemma WrapTextKeepsText(text: string, adv: char -> nat, limit: nat)
    ensures NonSpace(Concat(WrapText(text, adv, limit))) == NonSpace(text)
  {
    WrapPiecesKeepText(SplitOn(text, '\n'), adv, limit);
  }

  /** Every line fits within `limit` or has no space to cut at. */
  ghost predicate FitOrUnbreakable(lines: seq<string>, adv: char -> nat, limit: nat) {
    forall i :: 0 <= i < |lines| ==> Width(lines[i], adv) <= limit || Unbreakable(lines[i], adv, limit)
  }

  lemma FitOrUnbreakableAppend(a: seq<string>, b: seq<string>, adv: char -> nat, limit: nat)
    requires FitOrUnbreakable(a, adv, limit) && FitOrUnbreakable(b, adv, limit)
    ensures FitOrUnbreakable(a + b, adv, limit)
  {
    var ab := a + b;
    forall i | 0 <= i < |ab|
      ensures Width(ab[i], adv) <= limit || Unbreakable(ab[i], adv, limit)
    {
      if i < |a| { assert ab[i] == a[i]; } else { assert ab[i] == b[i - |a|]; }
    }
  }

  lemma WrapPieceFits(piece: string, adv: char -> nat, limit: nat)
    ensures FitOrUnbreakable(WrapPiece(piece, adv, limit), adv, limit)
  {
    var lines := WrapPiece(piece, adv, limit);
    if AllSpace(piece) {
      assert lines == [[]];
      assert Width(lines[0], adv) == 0;
    } else {
      assert lines == WrapLine(Strip(piece), adv, limit);
      WrapLineFits(Strip(piece), adv, limit);
      FitExceptLastWeaken(lines, adv, limit);
    }
  }

  lemma FitExceptLastWeaken(lines: seq<string>, adv: char -> nat, limit: nat)
    requires FitExceptLast(lines, adv, limit)
    ensures FitOrUnbreakable(lines, adv, limit)
  {
  }

  /** Every drawn line fits the page, unless it has no space to cut at. */
  lemma {:induction false} WrapPiecesFit(pieces: seq<string>, adv: char -> nat, limit: nat)
    ensures FitOrUnbreakable(WrapPieces(pieces, adv, limit), adv, limit)
    decreases |pieces|
  {
    if pieces != [] {
      WrapPiecesFit(pieces[1..], adv, limit);
      WrapPieceFits(pieces[0], adv, limit);
      FitOrUnbreakableAppend(WrapPiece(pieces[0], adv, limit), WrapPieces(pieces[1..], adv, limit), adv, limit);
    }
  }

  /** Every line `add_text` draws fits the page, unless it has no space to cut at. */
  lemma WrapTextFits(text: string, adv: char -> nat, limit: nat)
    ensures FitOrUnbreakable(WrapText(text, adv, limit), adv, limit)
  {
    WrapPiecesFit(SplitOn(text, '\n'), adv, limit);
  }

  /** A non-empty stripped line without spaces is drawn whole, however wide it is. */
  lemma NoSpaceLineWhole(line: string, adv: char -> nat, limit: nat)
    requires line != [] && IsStripped(line) && ' ' !in line
    ensures WrapLine(line, adv, limit) == [line]
  {
    if Width(line, adv) > limit {
      assert Unbreakable(line, adv, limit);
      var cut := BreakIndex(line, adv, limit);
      assert line[..cut] == line && line[cut..] == [];
    }
  }

  // ---------------------------------------------------------------------------
  // Words that fit

  /** Every run of `s` that holds no space fits within `limit`. */
  ghost predicate RunsFit(s: string, adv: char -> nat, limit: nat) {
    forall i, j :: 0 <= i <= j <= |s| ==> (' ' !in Run(s, i, j) ==> Width(Run(s, i, j), adv) <= limit)
  }

  /** The slice `s[i:j]`, named so that `RunsFit` is instantiated only where a run is mentioned. */
  function Run(s: string, i: nat, j: nat): string
    requires i <= j <= |s|
  {
    s[i..j]
  }

  lemma RunsFitSlice(s: string, a: nat, b: nat, adv: char -> nat, limit: nat)
    requires a <= b <= |s| && RunsFit(s, adv, limit)
    ensures RunsFit(s[a..b], adv, limit)
  {
    var t := s[a..b];
    forall i, j | 0 <= i <= j <= |t| && ' ' !in Run(t, i, j)
      ensures Width(Run(t, i, j), adv) <= limit
    {
      SliceOfSlice(s, a, b, i, j);
      assert Run(t, i, j) == Run(s, a + i, a + j);
    }
  }

  lemma SliceOfSlice(s: string, a: nat, b: nat, i: nat, j: nat)
    requires a <= b <= |s| && i <= j <= b - a
    ensures s[a..b][i..j] == s[a + i..a + j]
  {
    assert forall k :: 0 <= k < j - i ==> s[a..b][i..j][k] == s[a + i + k];
  }

  /** The first occurrence of `c` in `s`. */
  function IndexOf(s: string, c: char): (k: nat)
    requires c in s
    ensures k < |s| && s[k] == c && c !in s[..k]
  {
    if s[0] == c then 0 else 1 + IndexOf(s[1..], c)
  }

  /** When every space-free run fits, an overlong line has a space whose prefix fits. */
  lemma RunsFitBreakable(line: string, adv: char -> nat, limit: nat)
    requires line != [] && RunsFit(line, adv, limit) && Width(line, adv) > limit
    ensures !Unbreakable(line, adv, limit)
  {
    assert Run(line, 0, |line|) == line;
    var k := IndexOf(line, ' ');
    assert Run(line, 0, k) == line[..k];
  }

  /** Every line fits within `limit`. */
  ghost predicate AllFit(lines: seq<string>, adv: char -> nat, limit: nat) {
    forall i :: 0 <= i < |lines| ==> Width(lines[i], adv) <= limit
  }

  /** When every space-free run fits, every line of the intended wrap fits. */
  lemma {:induction false} RunsFitWrapFits(line: string, adv: char -> nat, limit: nat)
    requires IsStripped(line) && RunsFit(line, adv, limit)
    ensures AllFit(WrapLine(line, adv, limit), adv, limit)
    decreases |line|
  {
    if line != [] && Width(line, adv) > limit {
      RunsFitBreakable(line, adv, limit);
      var cut := BreakIndex(line, adv, limit);
      var rest := RunsFitRest(line, cut, adv, limit);
      RunsFitWrapFits(rest, adv, limit);
      AllFitCons(line[..cut], WrapLine(rest, adv, limit), adv, limit);
    }
  }

  lemma AllFitCons(head: string, tail: seq<string>, adv: char -> nat, limit: nat)
    requires Width(head, adv) <= limit && AllFit(tail, adv, limit)
    ensures AllFit([head] + tail, adv, limit)
  {
    var lines := [head] + tail;
    forall i | 0 <= i < |lines| ensures Width(lines[i], adv) <= limit {
      if i > 0 { assert lines[i] == tail[i - 1]; }
    }
  }

  /** The stripped remainder after a cut keeps the runs-fit property. */
  lemma RunsFitRest(line: string, cut: nat, adv: char -> nat, limit: nat) returns (rest: string)
    requires cut <= |line| && RunsFit(line, adv, limit)
    ensures rest == Strip(line[cut..]) && RunsFit(rest, adv, limit)
  {
    var x := line[cut..];
    RunsFitSlice(line, cut, |line|, adv, limit);
    assert line[cut..|line|] == x;
    rest := RunsFitStrip(x, adv, limit);
  }

  lemma RunsFitStrip(x: string, adv: char -> nat, limit: nat) returns (rest: string)
    requires RunsFit(x, adv, limit)
    ensures rest == Strip(x) && RunsFit(rest, adv, limit)
  {
    rest := Strip(x);
    RunsFitSlice(x, StripStart(x), StripEnd(x), adv, limit);
  }

  /**
    When every space-free run of the piece fits, the source's wrap stops and
    agrees with the intended one.
   */
  lemma RunsFitTerminates(line: string, adv: char -> nat, limit: nat)
    requires line != [] && IsStripped(line) && RunsFit(line, adv, limit)
    ensures WrapLineAsWritten(line, adv, limit) == Some(WrapLine(line, adv, limit))
  {
    RunsFitWrapFits(line, adv, limit);
    AsWrittenHangsIff(line, adv, limit);
    AsWrittenAgrees(line, adv, limit);
  }

  // ---------------------------------------------------------------------------
  // Whole texts, as written

  /** One piece as the source wraps it; `None` when the source never finishes. */
  function WrapPieceAsWritten(piece: string, adv: char -> nat, limit: nat): Option<seq<string>> {
    var line := Strip(piece);
    if line == [] then Some([[]]) else WrapLineAsWritten(line, adv, limit)
  }

  /**
    The source collects every line before drawing any, so one piece that
    never finishes leaves the whole call unfinished.
   */
  function WrapPiecesAsWritten(pieces: seq<string>, adv: char -> nat, limit: nat): Option<seq<string>>
    decreases |pieces|
  {
    if pieces == [] then Some([])
    else match WrapPieceAsWritten(pieces[0], adv, limit)
      case None => None
      case Some(head) =>
        match WrapPiecesAsWritten(pieces[1..], adv, limit)
        case None => None
        case Some(tail) => Some(head + tail)
  }

  /** The lines `add_text` draws for `text`, as written. */
  function WrapTextAsWritten(text: string, adv: char -> nat, limit: nat): Option<seq<string>> {
    WrapPiecesAsWritten(SplitOn(text, '\n'), adv, limit)
  }

  /** A piece on which the source's wrap never finishes. */
  predicate PieceHangs(piece: string, adv: char -> nat, limit: nat) {
    !AllSpace(piece) && Hopeless(LastLine(Strip(piece), adv, limit), adv, limit)
  }

  lemma AsWrittenPieceAgrees(piece: string, adv: char -> nat, limit: nat)
    ensures WrapPieceAsWritten(piece, adv, limit).None? <==> PieceHangs(piece, adv, limit)
    ensures WrapPieceAsWritten(piece, adv, limit).Some? ==>
      WrapPieceAsWritten(piece, adv, limit).value == WrapPiece(piece, adv, limit)
  {
    var line := Strip(piece);
    if line != [] {
      AsWrittenHangsIff(line, adv, limit);
      if WrapLineAsWritten(line, adv, limit).Some? {
        AsWrittenAgrees(line, adv, limit);
      }
    }
  }

  /** Some piece of `pieces` hangs the source. */
  predicate AnyHangs(pieces: seq<string>, adv: char -> nat, limit: nat) {
    exists k :: 0 <= k < |pieces| && PieceHangs(pieces[k], adv, limit)
  }

  lemma {:induction false} AsWrittenPiecesAgree(pieces: seq<string>, adv: char -> nat, limit: nat)
    ensures WrapPiecesAsWritten(pieces, adv, limit).None? <==> AnyHangs(pieces, adv, limit)
    ensures WrapPiecesAsWritten(pieces, adv, limit).Some? ==>
      WrapPiecesAsWritten(pieces, adv, limit).value == WrapPieces(pieces, adv, limit)
    decreases |pieces|
  {
    if pieces != [] {
      AsWrittenPieceAgrees(pieces[0], adv, limit);
      AsWrittenPiecesAgree(pieces[1..], adv, limit);
      if AnyHangs(pieces, adv, limit) {
        var k :| 0 <= k < |pieces| && PieceHangs(pieces[k], adv, limit);
        if k > 0 {
          assert pieces[1..][k - 1] == pieces[k];
        }
      }
      if AnyHangs(pieces[1..], adv, limit) {
        var k :| 0 <= k < |pieces[1..]| && PieceHangs(pieces[1..][k], adv, limit);
        assert pieces[k + 1] == pieces[1..][k];
      }
    }
  }

  /**
    The source's `add_text` finishes exactly when no piece of the text
    hangs, and then draws exactly the lines of the intended wrap.
   */
  lemma AsWrittenTextAgrees(text: string, adv: char -> nat, limit: nat)
    ensures WrapTextAsWritten(text, adv, limit).None? <==> AnyHangs(SplitOn(text, '\n'), adv, limit)
    ensures WrapTextAsWritten(text, adv, limit).Some? ==>
      WrapTextAsWritten(text, adv, limit).value == WrapText(text, adv, limit)
  {
    var pieces := SplitOn(text, '\n');
    AsWrittenPiecesAgree(pieces, adv, limit);
  }

  lemma RunsFitPieceFits(piece: string, adv: char -> nat, limit: nat)
    requires RunsFit(piece, adv, limit)
    ensures !PieceHangs(piece, adv, limit)
    ensures AllFit(WrapPiece(piece, adv, limit), adv, limit)
  {
    var line := RunsFitStrip(piece, adv, limit);
    if line == [] {
      assert WrapPiece(piece, adv, limit) == [[]];
      assert Width([], adv) == 0;
    } else {
      RunsFitWrapFits(line, adv, limit);
      AsWrittenHangsIff(line, adv, limit);
      RunsFitTerminates(line, adv, limit);
    }
  }

  lemma AllFitAppend(a: seq<string>, b: seq<string>, adv: char -> nat, limit: nat)
    requires AllFit(a, adv, limit) && AllFit(b, adv, limit)
    ensures AllFit(a + b, adv, limit)
  {
    var ab := a + b;
    forall i | 0 <= i < |ab| ensures Width(ab[i], adv) <= limit {
      if i < |a| { assert ab[i] == a[i]; } else { assert ab[i] == b[i - |a|]; }
    }
  }

  lemma {:induction false} RunsFitPiecesFit(pieces: seq<string>, adv: char -> nat, limit: nat)
    requires forall k :: 0 <= k < |pieces| ==> RunsFit(pieces[k], adv, limit)
    ensures AllFit(WrapPieces(pieces, adv, limit), adv, limit)
    ensures !AnyHangs(pieces, adv, limit)
    decreases |pieces|
  {
    if pieces != [] {
      RunsFitPieceFits(pieces[0], adv, limit);
      assert forall k :: 0 <= k < |pieces[1..]| ==> pieces[1..][k] == pieces[k + 1];
      RunsFitPiecesFit(pieces[1..], adv, limit);
      AllFitAppend(WrapPiece(pieces[0], adv, limit), WrapPieces(pieces[1..], adv, limit), adv, limit);
    }
  }

  /**
    When every space-free run of every piece fits, the source's `add_text`
    finishes, draws the intended lines, and every line fits the page.
   */
  lemma RunsFitTextFits(text: string, adv: char -> nat, limit: nat)
    requires forall k :: 0 <= k < |SplitOn(text, '\n')| ==> RunsFit(SplitOn(text, '\n')[k], adv, limit)
    ensures WrapTextAsWritten(text, adv, limit) == Some(WrapText(text, adv, limit))
    ensures AllFit(WrapText(text, adv, limit), adv, limit)
  {
    var pieces := SplitOn(text, '\n');
    RunsFitPiecesFit(pieces, adv, limit);
    AsWrittenPiecesAgree(pieces, adv, limit);
  }

  /** Every character one unit wide. */
  function UnitAdvance(c: char): nat { 1 }

  lemma {:induction false} UnitWidth(s: string)
    ensures Width(s, UnitAdvance) == |s|
    decreases |s|
  {
    if s != [] {
      UnitWidth(s[..|s| - 1]);
    }
  }

  /**
    A concrete hang: with every character one unit wide and a limit of three
    units, the space-free line "abcde" never leaves the source's inner loop,
    whatever the number of iterations allowed.
   */
  lemma OverlongWordHangs()
    ensures forall fuel: nat :: SearchSplit("abcde", UnitAdvance, 3, 5, fuel) == None
    ensures WrapLineAsWritten("abcde", UnitAdvance, 3) == None
  {
    var line := "abcde";
    UnitWidth(line);
    UnitWidth(line[..4]);
    assert Unbreakable(line, UnitAdvance, 3);
    SearchStopsIff(line, UnitAdvance, 3);
    CutAsWrittenSpec(line, UnitAdvance, 3);
  }

  /**
    A first word only one character too wide hangs too once more text
    follows: in "abcd e" the only space ends the 4-unit prefix "abcd", and
    `line[:-1]` is 5 units wide.
   */
  lemma OverlongFirstWordHangs()
    ensures WrapLineAsWritten("abcd e", UnitAdvance, 3) == None
  {
    var line := "abcd e";
    UnitWidth(line);
    UnitWidth(line[..4]);
    UnitWidth(line[..5]);
    forall q | 0 <= q < |line| && -1 < q && line[q] == ' '
      ensures Width(line[..q], UnitAdvance) > 3
    {
      assert q == 4;
    }
    assert Unbreakable(line, UnitAdvance, 3);
    SearchStopsIff(line, UnitAdvance, 3);
    CutAsWrittenSpec(line, UnitAdvance, 3);
  }

  /** The space-free line "abcde" is one piece. */
  lemma OverlongPiece()
    ensures SplitOn("abcde", '\n') == ["abcde"]
  {
    var parts: seq<string> := ["abcde"];
    assert Join(parts, '\n') == "abcde";
    assert '\n' !in parts[0];
    SplitJoin(parts, '\n');
  }

  /** The line "abcde" is stripped already. */
  lemma OverlongStripped()
    ensures Strip("abcde") == "abcde"
  {
    assert !IsSpace('a') && !IsSpace('e');
    assert StripStart("abcde") == 0;
    assert StripEnd("abcde") == 5;
  }

  /** The same text through the whole of `add_text`: never drawn as written, drawn whole as intended. */
  lemma OverlongTextHangs()
    ensures WrapTextAsWritten("abcde", UnitAdvance, 3) == None
    ensures WrapText("abcde", UnitAdvance, 3) == ["abcde"]
  {
    var line := "abcde";
    OverlongWordHangs();
    OverlongPiece();
    OverlongStripped();
    OverlongLineWhole();
    assert WrapPieces([line], UnitAdvance, 3) == WrapPiece(line, UnitAdvance, 3) + WrapPieces([], UnitAdvance, 3);
    assert WrapPiecesAsWritten([line], UnitAdvance, 3) == None;
  }

  lemma OverlongLineWhole()
    ensures WrapLine("abcde", UnitAdvance, 3) == ["abcde"]
  {
    NoSpaceLineWhole("abcde", UnitAdvance, 3);
  }
}
